=== FILE: README.md ===
# extent-ai extraction core in Dafny

extent-ai reads an annual-report PDF. It sends one page image to a
multimodal model and asks for the financial-highlights table as JSON. It
validates that JSON against two Pydantic models, `FinancialMetric` and
`FinancialHighlights`, and writes the result to an output directory. This
project models the deterministic core of that pipeline and proves
properties about it:

- `Schema` (schema.dfy) is the two Pydantic models, seen as a validator
  from parsed JSON to a `Highlights` record, plus `model_dump`. Every field
  without a default is required. An `Optional[float]` may be null but must
  be present. Unknown keys are ignored at every level. `metadata` defaults
  to `{}`. An integer given for a float field is widened.
- `Extract` (extract.dfy) is `get_system_prompt`, `get_token_counts` and the
  retry loop of `extract_from_image`. The model provider is a script of
  outcomes, one per attempt. `repair_json` followed by `json.loads` is a
  `parse` function passed in as a parameter. A run records its status, the
  number of attempts, the number of provider calls and the list of sleeps.
- `Utils` (utils.dfy) is `get_file_path_to_save`, with POSIX `basename`,
  `splitext` and the `re.sub(...).lower()` sanitiser. It also covers the
  output name `main.py` derives, and `write_output_json` up to the write
  itself: the `.json` guard, the `os.path.join` target and the `model_dump`
  payload.
- `FileHandler` (file_handler.dfy) is the argument guard of `read_pdf`.
  `pdf2image.convert_from_path` is a converter passed in as a parameter.
- `Wrappers`, `Text` and `JsonModel` hold `Option`/`Result`, two string
  helpers and the JSON value type.

Some behaviour of the code is easy to misread; the model follows the code:

- A missing `PROMPT_PATH` does not stop the run. `get_system_prompt`
  raises inside the `try` of the loop (scripts/extract.py:100-103 and
  :52-54), so the error is retried like any other failure and escapes only
  after the last attempt (`Extract.MissingPromptPathIsRetried`).
- A metric name may be empty. The business rule written out in
  test_summary.py:125 rejects a metric without a name, but the Pydantic
  model `FinancialMetric` (scripts/extract.py:20) has no such constraint,
  so `""` is accepted (`Schema.EmptyNameAndAnyChangeAccepted`).
- Unknown keys are ignored at every level, not only inside `metadata`:
  neither model changes Pydantic's default of ignoring extra fields
  (`Schema.UnknownTopLevelKeyIgnored`, `Schema.UnknownMetricKeyIgnored`).
- The mocked model reply in test_summary.py:258-299 has `value_2023` but
  no `value_2025`, a field without a default. The code rejects it
  (`Schema.TestSuiteReplyRejected`). Once `value_2025` is supplied, it is
  accepted (`Schema.CompletedTestSuiteReplyAccepted`).
- The comment in the test for `get_file_path_to_save` (test_summary.py:170-171)
  says the name becomes `financial_statement_1_<uuid>.pdf`. In fact it is
  `financial_statement_1__<uuid>.pdf`: the `)` becomes `_`, then `_` and the
  uuid are appended (`Utils.SavedNameOfDuplicate`). The assertions
  (test_summary.py:168-179) look only at the start, the `.pdf` end, the
  number of `_`-separated parts and the length of the last one, which is
  the eight uuid characters either way.
- `retry_delay` is passed straight to `time.sleep`, which converts it to a
  signed 64-bit count of nanoseconds before checking its sign. A delay
  beyond 9223372036 seconds in either direction raises `OverflowError`, and
  a negative delay within that range raises `ValueError`. Both are raised
  inside the `except` handler (scripts/extract.py:150), so they escape at
  once and end the call. With a single try, or once the last attempt has
  failed, no sleep is attempted and the attempt's own error is raised
  (`Extract.RejectedDelayStopsAtFirstFailure`, `Extract.SleepBounds`).

## Model

| member | source | states |
|---|---|---|
| Schema.ValidateMetric | scripts/extract.py:17-29 | A metric object is accepted exactly when it has a string `metric` and the three number-or-null fields; the record carries that name and the numbers those fields denote; a rejection is located inside `metrics[index]` |
| Schema.ValidateMetrics | scripts/extract.py:36-38 | A list of metrics is accepted exactly when every item is a well-formed metric; the result has one record per item, in order, each the validation of its item at its own index |
| Schema.ValidateMetricsFirstError | scripts/extract.py:36-38 | A rejected list reports the error of the first item that is not a well-formed metric, located at that item's index |
| Schema.ValidateHighlights | scripts/extract.py:32-41 | A document is accepted exactly when it is an object with an integer `report_year`, a list of well-formed metrics and, if present, an object `metadata`; the record holds those values, with `{}` when `metadata` is absent |
| Schema.DumpHighlights | scripts/utils.py:58-59 | `model_dump` produces an object with exactly the `report_year`, `metrics` and `metadata` keys, and validating it gives back the same record |
| Schema.MetricsRoundTrip | scripts/utils.py:58-59 | Validating the dumped list of metrics gives back the same list |
| Schema.MissingReportYearRejected | test_summary.py:320-328 | A document without `report_year` is rejected, with the error located at `report_year` |
| Schema.UnknownTopLevelKeyIgnored | scripts/extract.py:32-41 | Adding a key outside the schema to the top-level object does not change the validation result |
| Schema.UnknownMetricKeyIgnored | scripts/extract.py:17-29 | Adding a key outside the schema (such as `value_2023`) to a metric object does not change the validation result |
| Schema.EmptyNameAndAnyChangeAccepted | scripts/extract.py:20-29 | An empty metric name and any change percentage, however far from the two values, are accepted |
| Schema.TestSuiteReplyRejected | test_summary.py:258-299 | The mocked model reply lacks `value_2025` and is rejected, with the error at `metrics[0].value_2025` |
| Schema.CompletedTestSuiteReplyAccepted | test_summary.py:258-299 | With `value_2025` set to null, the same reply validates to report year 2024 and one `Revenue` metric of 171170.0 and -5.8 |
| Extract.SystemPrompt | scripts/extract.py:51-58 | An unset or empty prompt path, and only that, gives the missing-path error; the prompt is returned exactly when the path is set and readable, and it is the file's contents |
| Extract.TokenCounts | scripts/extract.py:61-82 | Without usage metadata the counts are `{}`; with it they have exactly the three keys, each taken from its attribute or 0 when the attribute is absent |
| Extract.StampTokenUsage | scripts/extract.py:127-129 | The `token_usage` metadata key is set to the counts; every other metadata key, the report year and the metrics are unchanged |
| Extract.Attempt | scripts/extract.py:103-140 | The provider is called exactly when the prompt loads; an attempt succeeds exactly when the reply parses and validates, and then it yields the validated record with token usage stamped; a prompt failure is passed on unchanged, and every other failure is the provider's error, the decode error of the reply text or the validation error of the parsed reply, re-raised unchanged |
| Extract.RetryLoop | scripts/extract.py:99-155 | From a given attempt on, between one and the remaining attempts are made, with at most one provider call each; the loop's full behaviour is the independent `LoopSpec` predicate, which `Extract.RetryLoopSpec` proves the loop meets |
| Extract.RetryLoopSpec | scripts/extract.py:99-155 | From a given attempt on: at least one and at most the remaining attempts are made; every attempt before the last one failed; a returned record is the last attempt's; the sleeps double from the starting delay, one per attempt but the last, and `time.sleep` accepted each of them; a run that uses up its attempts and raises, raises the last attempt's error; a run that raises earlier stopped because `time.sleep` rejected the next delay after a failure, and raises what the sleep raised; calls equal attempts when every attempt calls the provider and are 0 when none does |
| Extract.ExtractFromImage | scripts/extract.py:85-155 | With `max_tries < 1` the loop body never runs and the function returns `None`, with no attempt, call or sleep; otherwise it makes between one and `max_tries` attempts and does not return `None` |
| Extract.ExtractFromImageSpec | scripts/extract.py:85-155 | With at least one try: attempts are made until one succeeds or `max_tries` are used; the record returned is that of the successful attempt; the sleeps form a doubling backoff from `retry_delay`, one per attempt but the last, each accepted by `time.sleep`; after `max_tries` attempts the error raised is the last attempt's, and before that it is the error `time.sleep` raised for the next delay after a failure; calls equal attempts when the prompt loads and are 0 otherwise |
| Extract.BackoffClosedForm | scripts/extract.py:148-152 | A sequence of sleeps is a doubling backoff from delay d exactly when its i-th sleep is d·2ⁱ |
| Extract.RetryLoopFirstSuccess | scripts/extract.py:119-131 | When attempt k+1 is the first to succeed from the current attempt on, the loop returns its record, having made every attempt up to it and slept once per earlier failure, provided `time.sleep` accepts each of those sleeps |
| Extract.RetryLoopAllFail | scripts/extract.py:142-155 | When every remaining attempt fails and `time.sleep` accepts each sleep of the backoff, the loop raises the last attempt's error after all of them, with one sleep per attempt but the last |
| Extract.FirstSuccessIsReturned | scripts/extract.py:119-131 | If attempt k+1 is the first to succeed, and `time.sleep` accepts the k sleeps before it, its record is returned after k+1 attempts and k sleeps |
| Extract.AllFailedRaisesLast | scripts/extract.py:142-155 | If all `max_tries` attempts fail, and `time.sleep` accepts the `max_tries - 1` sleeps between them, the last attempt's error is raised after `max_tries` attempts and that many sleeps |
| Extract.MissingPromptPathIsRetried | scripts/extract.py:51-54 | A missing prompt path makes every attempt fail without calling the provider, and, when `time.sleep` accepts every sleep between them, the missing-path error escapes after all attempts |
| Extract.RetryLoopReadsOnlyItsAttempts | scripts/extract.py:99-155 | Two attempt sequences that agree on the attempts actually made give the same run |
| Extract.LaterOutcomesIgnored | scripts/extract.py:99-155 | Outcomes the provider would give after the run has stopped never influence the run |
| Extract.FailureKindsInterchangeable | scripts/extract.py:133-146 | Every kind of failure is handled alike: sequences with the same successes and calls give the same attempts, calls, sleeps and returned record |
| Extract.BackoffTotal | scripts/extract.py:148-152 | The total of n doubling sleeps from delay d is d·(2ⁿ − 1) |
| Extract.GarbageThenValidReply | scripts/extract.py:119-152 | An unrepairable reply followed by a valid one returns the second reply's record after one sleep of the initial delay, for any delay `time.sleep` accepts; the third outcome is never used |
| Extract.ValidReplyOnFirstAttempt | test_summary.py:256-299 | Called with the default `max_tries` and `retry_delay`, as the test does, the mocked reply, completed with `value_2025`, returns at once with the mocked token counts under `token_usage` and the reply's own metadata kept |
| Extract.RejectedDelayStopsAtFirstFailure | scripts/extract.py:142-155 | With a delay `time.sleep` rejects, the first failed attempt ends the call with no sleep: the sleep's error is raised when another attempt remains, the attempt's own error when it was the only try |
| Extract.SleepAccepted | scripts/extract.py:150 | `time.sleep` accepts a delay exactly when it is non-negative and its count of nanoseconds fits in a signed 64-bit integer |
| Extract.SleepError | scripts/extract.py:150 | A rejected delay raises `OverflowError` exactly when its count of nanoseconds does not fit in a signed 64-bit integer, and `ValueError` exactly when it fits but is negative; either error carries the delay |
| Extract.SleepsAcceptedClosedForm | scripts/extract.py:148-152 | The first n sleeps of a backoff from d are all accepted exactly when n is 0, or d is non-negative and the n-th sleep, d·2ⁿ⁻¹, is at most 9223372036 seconds |
| Extract.SleepBounds | scripts/extract.py:150 | `time.sleep` accepts 0 and 9223372036; it raises `ValueError` for -1 and -9223372036 and `OverflowError` one second beyond either end; the default backoff of 2 and 4 seconds is accepted |
| Extract.SingleMalformedReplyRaises | test_summary.py:305-318 | With one try, an unrepairable reply is raised at once, with no sleep |
| Utils.Basename | scripts/utils.py:18 | The base name holds no `/`, is a suffix of the path, and is preceded in the path by a `/` unless it is the whole path |
| Utils.SplitExt | scripts/utils.py:18 | Stem and extension concatenate to the input; the extension is empty or a `.` followed by no `.` or `/`; the stem keeps a non-dot character before the extension |
| Utils.SplitExtFindsExtension | scripts/utils.py:18 | An empty extension means no position splits the path into a name with a non-dot character and a `.`-led tail without `.` or `/` |
| Utils.Join | scripts/utils.py:55 | The joined path ends with the name, has the name as its base name when the name holds no `/`, and is the name itself when the name is absolute; a relative name follows the directory, which the result starts with, and exactly one `/` is put between them when the directory is non-empty and does not already end in `/`, none otherwise |
| Utils.Sanitize | scripts/utils.py:21 | The result is never longer than the input and is empty exactly when the input is; the characters it keeps and its `_` per run are stated by `Utils.SanitizeShape`, `Utils.SanitizeKeepsAlnums`, `Utils.SanitizeUnderscorePerRun` and `Utils.SanitizeConcat`, and `Utils.SanitizeStem` proves it equal to a left-to-right scan |
| Utils.SanitizeShape | scripts/utils.py:21 | The result contains only lower-case ASCII letters, digits and `_`; it is no longer than the input; it ends in `_` exactly when the input ends in a non-alphanumeric; it is empty exactly when the input is |
| Utils.SanitizeStem | scripts/utils.py:21 | A left-to-right scan that replaces each run of non-alphanumerics by one `_` and lower-cases gives the same string as the recursive definition |
| Utils.SanitizeHasNoDoubleUnderscore | scripts/utils.py:21 | A sanitised string never has two `_` in a row |
| Utils.SanitizeKeepsAlnums | scripts/utils.py:21 | The alphanumerics of the sanitised string are those of the input, lower-cased, in order |
| Utils.SanitizeUnderscorePerRun | scripts/utils.py:21 | The sanitised string has exactly one `_` per maximal run of non-alphanumerics in the input |
| Utils.SanitizeFixesSafe | scripts/utils.py:21 | A string of lower-case alphanumerics without double `_` is left unchanged |
| Utils.SanitizeIdempotent | scripts/utils.py:21 | Sanitising twice is the same as sanitising once |
| Utils.SanitizeConcat | scripts/utils.py:21 | Sanitising distributes over a concatenation that does not split a run of non-alphanumerics |
| Utils.DuplicateNameShape | scripts/utils.py:21 | `a_b (c)` sanitises to `a_b_c_`: the space and `(` become one `_`, and the `)` another |
| Utils.FileNameToSave | scripts/utils.py:17-24 | The saved name holds no `/`, keeps the input's extension, and splits back into the sanitised stem, `_`, the first eight uuid characters, and that extension |
| Utils.SavedNameOfDuplicate | test_summary.py:162-179 | For `dir/a_b (c).pdf` the saved name is `a_b_c__<uuid8>.pdf`: the directory is dropped, the uuid is the last `_`-separated part, and a double `_` precedes it |
| Utils.OutputJsonName | main.py:70-72 | The output name has no `/`, ends with `.json`, and splits back into the stem of the input's base name and `.json` whenever that stem holds a character other than `.` |
| Utils.ExtensionSplitsOff | scripts/utils.py:18 | A `/`-free name holding a character other than `.`, followed by an extension, splits back into the two |
| Utils.WriteOutputJson | scripts/utils.py:48-59 | Exactly the names not ending in `.json` are rejected; otherwise the target ends with the name and, for a relative name, starts with the output directory, followed by exactly one added `/` when that directory is non-empty and does not end in `/`, and none otherwise, and a record is written as a document that validates back to the same record |
| Utils.OutputNameOfCopyAccepted | main.py:69-73 | The output name derived from the copied input is the sanitised stem, `_` and the uuid part, with `.json`, and the write guard accepts it |
| FileHandler.ReadPdf | scripts/file_handler.py:6-28 | The converter is called, with exactly the argument, if and only if the argument is a string ending in `.pdf`; pages come back exactly when it is called and succeeds, and they are its pages unchanged |
| FileHandler.RejectedPaths | test_summary.py:217-228 | `None`, `""`, a `.txt` name, a non-string and an upper-case `.PDF` all give `None` without calling the converter |

## Left out

- The Gemini client, `setup_gemini` and the request itself: the provider is a script of outcomes, one per attempt. A failure to construct the client is a `ProviderRaised` outcome like any other provider error.
- Extract.ExtractFromImage: requires at least `max_tries` scripted outcomes, because the script stands in for the provider's answer at each attempt; runs that stop early never look at the rest (`Extract.LaterOutcomesIgnored`).
- `repair_json` and `json.loads`: an arbitrary `parse` parameter, whose `None` is the decode error. Which strings `json_repair` can fix is not modelled.
- Reading the prompt file: its contents are part of the `PathSet` value, and `None` there is an I/O error.
- `time.sleep`: sleeps are recorded, not performed. A delay it rejects is modelled, as `SleepOverflow` or `NegativeSleep`.
- Extract.ExtractFromImageSpec: the prompt setting and the prompt file are read once for the whole run, through one `PromptSource`. The code re-reads both on every attempt (`setup_gemini` at scripts/extract.py:103), so a file that becomes readable, or unreadable, between attempts is not modelled. The clause that calls equal attempts when the prompt loads, and are 0 otherwise, relies on this.
- Extract.RetryLoopSpec: `retry_delay` and the sleeps are integers. Python doubles an integer without overflow, and the limit of `time.sleep` is modelled for integers. A float delay is not modelled, nor the rounding of its doubling and of its conversion to nanoseconds.
- Logging: it has no effect on results.
- `uuid.uuid4()`: the uuid text is a parameter. `Utils.FileNameToSave` requires its first eight characters to be lower-case hex, as `str(uuid4())` guarantees.
- `copy_to_input_dir` and `os.makedirs`: only the name is modelled. Whether the file exists, and the copy itself, are file-system I/O.
- `json.dump` and the file write: the model stops at the target path and the document.
- `pil_image_to_base64`: image encoding is not modelled. The image is only forwarded to the provider.
- scripts/pipeline.py: `run_pdf_extraction` wires the core together, and its `len(page_images)` call comes before the `None` check. main.py's argument handling is not modelled either.
- Schema.ValidateHighlights: Pydantic's lax coercions are not modelled. Numeric strings, booleans for numbers and integral floats for `report_year` are rejected here, but Pydantic accepts them.
- Schema.ValidateHighlights: a Pydantic error lists every failing field; the model reports only the first, in field order.
- JSON numbers are mathematical integers and reals: floating-point rounding and duplicate object keys are not modelled. An object is a map, so key order is not modelled.
- `pdf2image.convert_from_path`: a converter parameter. Page images have an abstract type.

=== FILE: extract.dfy ===
/** `extract_from_image` of scripts/extract.py: up to `max_tries` attempts,
    each of which loads the system prompt, calls the model, repairs and
    parses the reply, validates it and stamps the token usage; every failure
    is logged, followed by a sleep with doubling delay, and the last one is
    re-raised.

    The model provider is a scripted sequence: `script[k - 1]` is what the
    provider does when called on attempt `k`. `json_repair.repair_json`
    followed by `json.loads` is the opaque `parse`. Sleeping is recorded as a
    list of durations instead of being performed. */
module Extract {
  import opened Wrappers
  import opened JsonModel
  import opened Schema

  /** The `PROMPT_PATH` setting and what reading that file gives
      (`None` when `open` raises). */
  datatype PromptSource = PathUnset | PathSet(path: string, contents: Option<string>)

  /** `response.usage_metadata`; each count is `None` when the attribute is
      absent (a present attribute may still hold any value, `null` included). */
  datatype UsageMeta = UsageMeta(
    promptTokens: Option<Json>,
    candidatesTokens: Option<Json>,
    totalTokens: Option<Json>)

  /** What the provider does on one call: the client or the request raises,
      or a reply arrives with its text and (maybe) its usage metadata. */
  datatype Outcome =
    | ProviderRaised(reason: string)
    | Replied(text: string, usage: Option<UsageMeta>)

  /** Everything that can be raised inside an attempt, plus what
      `time.sleep` raises for a delay it rejects: `OverflowError` when the
      delay does not fit its nanosecond clock, `ValueError` when it is
      negative. */
  datatype Error =
    | MissingPromptPath
    | PromptUnreadable(path: string)
    | ProviderFailed(reason: string)
    | MalformedReply(text: string)
    | SchemaInvalid(text: string, schemaError: SchemaError)
    | SleepOverflow(delay: int)
    | NegativeSleep(delay: int)

  /** How the call ended: with a record, by falling off the loop (`None`,
      only when `max_tries < 1`), or by raising. */
  datatype Status = Returned(highlights: Highlights) | ReturnedNone | Raised(error: Error)

  /** One run: its ending, how many attempts were made, how many of them
      reached the provider, and the sleeps in order. */
  datatype Run = Run(status: Status, attempts: nat, calls: nat, sleeps: seq<int>)

  /** One attempt's effect: whether it called the provider, and its result. */
  datatype AttemptResult = AttemptResult(called: bool, result: Result<Highlights, Error>)

  /** The defaults of `extract_from_image`'s `max_tries` and `retry_delay`. */
  const DefaultMaxTries := 3
  const DefaultRetryDelay := 2

  /** The largest whole number of seconds `time.sleep` accepts: it converts
      its argument to a signed 64-bit count of nanoseconds, and
      `(2^63 - 1) / 10^9` rounds down to this. */
  const MaxSleepSeconds := 9_223_372_036

  /** The range of the signed 64-bit nanosecond count `time.sleep` converts to. */
  const NanosPerSecond := 1_000_000_000
  const Int64Min := -0x8000_0000_0000_0000
  const Int64Max := 0x7fff_ffff_ffff_ffff

  predicate FitsNanoseconds(delay: int) {
    Int64Min <= delay * NanosPerSecond <= Int64Max
  }

  const TokenUsageKey := "token_usage"
  const InputTokensKey := "input_tokens"
  const OutputTokensKey := "output_tokens"
  const TotalTokensKey := "total_tokens"

  /** `get_system_prompt`: an unset or empty `PROMPT_PATH` raises, so does an
      unreadable file; otherwise the file's contents are the prompt. */
  function SystemPrompt(src: PromptSource): (r: Result<string, Error>)
    ensures r == Failure(MissingPromptPath) <==> src.PathUnset? || src.path == ""
    ensures r.Success? <==> src.PathSet? && src.path != "" && src.contents.Some?
    ensures r.Success? ==> r.value == src.contents.value
  {
    match src
    case PathUnset => Failure(MissingPromptPath)
    case PathSet(path, contents) =>
      if path == "" then Failure(MissingPromptPath)
      else match contents
        case None => Failure(PromptUnreadable(path))
        case Some(text) => Success(text)
  }

  /** `get_token_counts`: `{}` without usage metadata, otherwise exactly the
      three counters, each 0 when its attribute is absent. */
  function TokenCounts(usage: Option<UsageMeta>): (r: map<string, Json>)
    ensures usage.None? <==> r == map[]
    ensures usage.Some? ==> r.Keys == {InputTokensKey, OutputTokensKey, TotalTokensKey}
    ensures usage.Some? ==> r[InputTokensKey] == usage.value.promptTokens.GetOr(JInt(0))
    ensures usage.Some? ==> r[OutputTokensKey] == usage.value.candidatesTokens.GetOr(JInt(0))
    ensures usage.Some? ==> r[TotalTokensKey] == usage.value.totalTokens.GetOr(JInt(0))
  {
    match usage
    case None => map[]
    case Some(u) =>
      var counts := map[
        InputTokensKey := u.promptTokens.GetOr(JInt(0)),
        OutputTokensKey := u.candidatesTokens.GetOr(JInt(0)),
        TotalTokensKey := u.totalTokens.GetOr(JInt(0))];
      assert InputTokensKey in counts;
      counts
  }

  /** `metadata["token_usage"] = get_token_counts(response)`: the key is set
      (replacing any value the model supplied) and nothing else changes. */
  function StampTokenUsage(h: Highlights, usage: Option<UsageMeta>): (r: Highlights)
    ensures r.reportYear == h.reportYear && r.metrics == h.metrics
    ensures r.metadata.Keys == h.metadata.Keys + {TokenUsageKey}
    ensures r.metadata[TokenUsageKey] == JObj(TokenCounts(usage))
    ensures forall k :: k in h.metadata && k != TokenUsageKey ==> r.metadata[k] == h.metadata[k]
  {
    h.(metadata := h.metadata[TokenUsageKey := JObj(TokenCounts(usage))])
  }

  /** One pass through the `try` block of the loop. */
  function Attempt(src: PromptSource, parse: string -> Option<Json>, o: Outcome): (a: AttemptResult)
    ensures a.called <==> SystemPrompt(src).Success?
    ensures !a.called ==> a.result == Failure(SystemPrompt(src).error)
    ensures a.result.Success? <==>
              && a.called && o.Replied? && parse(o.text).Some?
              && ValidateHighlights(parse(o.text).value).Success?
    ensures a.result.Success? ==>
              a.result.value == StampTokenUsage(ValidateHighlights(parse(o.text).value).value, o.usage)
    // a failure past the prompt is the provider's, the decoder's or the
    // validator's own error, re-raised unchanged
    ensures a.called && o.ProviderRaised? ==> a.result == Failure(ProviderFailed(o.reason))
    ensures a.called && o.Replied? && parse(o.text).None? ==> a.result == Failure(MalformedReply(o.text))
    ensures a.called && o.Replied? && parse(o.text).Some? && ValidateHighlights(parse(o.text).value).Failure? ==>
              a.result == Failure(SchemaInvalid(o.text, ValidateHighlights(parse(o.text).value).error))
  {
    match SystemPrompt(src)
    case Failure(e) => AttemptResult(false, Failure(e))
    case Success(_) =>
      match o
      case ProviderRaised(reason) => AttemptResult(true, Failure(ProviderFailed(reason)))
      case Replied(text, usage) =>
        match parse(text)
        case None => AttemptResult(true, Failure(MalformedReply(text)))
        case Some(doc) =>
          match ValidateHighlights(doc)
          case Failure(se) => AttemptResult(true, Failure(SchemaInvalid(text, se)))
          case Success(h) => AttemptResult(true, Success(StampTokenUsage(h, usage)))
  }

  /** What every attempt would give, attempt `k` at index `k - 1`. */
  function Attempts(src: PromptSource, parse: string -> Option<Json>, script: seq<Outcome>): (tries: seq<AttemptResult>)
    ensures |tries| == |script|
    ensures forall i :: 0 <= i < |script| ==> tries[i] == Attempt(src, parse, script[i])
  {
    seq(|script|, i requires 0 <= i < |script| => Attempt(src, parse, script[i]))
  }

  /** The attempts at indices `lo` up to (excluding) `hi` all fail. */
  predicate AllFail(tries: seq<AttemptResult>, lo: nat, hi: nat)
    requires hi <= |tries|
  {
    forall i :: lo <= i < hi ==> tries[i].result.Failure?
  }

  /** The attempts at indices `lo` up to (excluding) `hi` agree on calling
      the provider: all of them do when `called`, none otherwise. */
  predicate AllCalled(tries: seq<AttemptResult>, lo: nat, hi: nat, called: bool)
    requires hi <= |tries|
  {
    forall i :: lo <= i < hi ==> tries[i].called == called
  }

  function Pow2(n: nat): (p: nat)
    ensures p >= 1
  {
    if n == 0 then 1 else 2 * Pow2(n - 1)
  }

  /** `time.sleep(delay)` returns, rather than raising. */
  predicate SleepAccepted(delay: int)
    ensures SleepAccepted(delay) <==> FitsNanoseconds(delay) && delay >= 0
  {
    0 <= delay <= MaxSleepSeconds
  }

  /** What `time.sleep(delay)` raises for a delay it rejects. The conversion
      to nanoseconds comes first, so a delay beyond the clock's range in
      either direction overflows; a negative delay in range is refused next. */
  function SleepError(delay: int): (e: Error)
    requires !SleepAccepted(delay)
    ensures e == SleepOverflow(delay) <==> !FitsNanoseconds(delay)
    ensures e == NegativeSleep(delay) <==> FitsNanoseconds(delay) && delay < 0
  {
    if delay < -MaxSleepSeconds || delay > MaxSleepSeconds then SleepOverflow(delay) else NegativeSleep(delay)
  }

  /** The first `n` sleeps of a backoff from `delay` are all accepted. */
  predicate SleepsAccepted(delay: int, n: nat)
    decreases n
  {
    n == 0 || (SleepAccepted(delay) && SleepsAccepted(delay * 2, n - 1))
  }

  /** Doubling only grows a non-negative delay, so the first `n` sleeps are
      accepted exactly when the delay is non-negative and the `n`-th sleep,
      the largest, is within the clock's range. */
  lemma {:induction false} SleepsAcceptedClosedForm(delay: int, n: nat)
    ensures SleepsAccepted(delay, n) <==> n == 0 || (0 <= delay && delay * Pow2(n - 1) <= MaxSleepSeconds)
    decreases n
  {
    if n > 1 {
      SleepsAcceptedClosedForm(delay * 2, n - 1);
      assert delay * 2 * Pow2(n - 2) == delay * Pow2(n - 1);
      if 0 <= delay {
        assert delay <= delay * Pow2(n - 1) by {
          assert delay * Pow2(n - 1) - delay == delay * (Pow2(n - 1) - 1);
        }
      }
    }
  }

  /** The sleeps of an exponential backoff starting at `delay`: the first
      sleep is `delay` and the rest are a backoff starting at twice it. */
  predicate IsBackoff(sleeps: seq<int>, delay: int)
    decreases |sleeps|
  {
    |sleeps| == 0 || (sleeps[0] == delay && IsBackoff(sleeps[1..], delay * 2))
  }

  /** The `i`-th sleep of a backoff is `delay * 2^i`, and any sequence of that
      form is a backoff. */
  lemma {:induction false} BackoffClosedForm(sleeps: seq<int>, delay: int)
    ensures IsBackoff(sleeps, delay) <==> forall i :: 0 <= i < |sleeps| ==> sleeps[i] == delay * Pow2(i)
    decreases |sleeps|
  {
    if |sleeps| > 0 {
      var rest := sleeps[1..];
      BackoffClosedForm(rest, delay * 2);
      forall i | 1 <= i < |sleeps|
        ensures rest[i - 1] == delay * 2 * Pow2(i - 1) <==> sleeps[i] == delay * Pow2(i)
      {
        assert rest[i - 1] == sleeps[i];
        assert delay * 2 * Pow2(i - 1) == delay * Pow2(i);
      }
      if forall i :: 0 <= i < |sleeps| ==> sleeps[i] == delay * Pow2(i) {
        assert sleeps[0] == delay * Pow2(0);
        assert forall i :: 0 <= i < |rest| ==> rest[i] == delay * 2 * Pow2(i) by {
          forall i | 0 <= i < |rest| ensures rest[i] == delay * 2 * Pow2(i) {
            assert rest[i] == sleeps[i + 1];
          }
        }
      }
    }
  }

  /** The loop from attempt `attempt` on, with `delay` the current value of
      `retry_delay`; the counts and sleeps are those of this suffix. What
      the loop computes is stated by `LoopSpec` and proved in
      `RetryLoopSpec`. */
  function RetryLoop(tries: seq<AttemptResult>, maxTries: nat, attempt: nat, delay: int): (run: Run)
    requires 1 <= attempt <= maxTries <= |tries|
    ensures 1 <= run.attempts <= maxTries - attempt + 1
    ensures run.calls <= run.attempts
    decreases maxTries - attempt
  {
    var a := tries[attempt - 1];
    var called := if a.called then 1 else 0;
    match a.result
    case Success(h) => Run(Returned(h), 1, called, [])
    case Failure(e) =>
      if attempt < maxTries then
        if !SleepAccepted(delay) then Run(Raised(SleepError(delay)), 1, called, [])
        else
          var rest := RetryLoop(tries, maxTries, attempt + 1, delay * 2);
          Run(rest.status, rest.attempts + 1, rest.calls + called, [delay] + rest.sleeps)
      else Run(Raised(e), 1, called, [])
  }

  /** What a run of the loop from attempt `attempt` on, with `delay` the
      current value of `retry_delay`, looks like. */
  predicate LoopSpec(tries: seq<AttemptResult>, maxTries: nat, attempt: nat, delay: int, run: Run)
    requires 1 <= attempt <= maxTries <= |tries|
  {
    && 1 <= run.attempts <= maxTries - attempt + 1
    && !run.status.ReturnedNone?
    && (AllCalled(tries, attempt - 1, maxTries, true) ==> run.calls == run.attempts)
    && (AllCalled(tries, attempt - 1, maxTries, false) ==> run.calls == 0)
    // every attempt but the last one made failed
    && AllFail(tries, attempt - 1, attempt + run.attempts - 2)
    && (run.status.Returned? ==>
          tries[attempt + run.attempts - 2].result == Success(run.status.highlights))
    // one sleep per attempt but the last, doubling, and each one accepted
    && |run.sleeps| == run.attempts - 1 && IsBackoff(run.sleeps, delay)
    && SleepsAccepted(delay, run.attempts - 1)
    // using up the attempts raises the last one's error
    && (run.status.Raised? && run.attempts == maxTries - attempt + 1 ==>
          tries[maxTries - 1].result == Failure(run.status.error))
    // stopping earlier without a record means `time.sleep` rejected the
    // next delay after a failure, and what it raised escapes
    && (run.status.Raised? && run.attempts < maxTries - attempt + 1 ==>
          && tries[attempt + run.attempts - 2].result.Failure?
          && !SleepAccepted(delay * Pow2(run.attempts - 1))
          && run.status.error == SleepError(delay * Pow2(run.attempts - 1)))
  }

  /** The loop stops at the first success or after `max_tries` attempts,
      every attempt before the last one having failed; it returns the last
      attempt's record or raises its error; it calls the provider once per
      attempt when the prompt loads and never otherwise; it sleeps once per
      failed attempt that is not the last, doubling the delay each time. A
      delay `time.sleep` rejects ends the loop at that failure, with the
      sleep's own error. */
  lemma {:induction false} RetryLoopSpec(tries: seq<AttemptResult>, maxTries: nat, attempt: nat, delay: int)
    requires 1 <= attempt <= maxTries <= |tries|
    ensures LoopSpec(tries, maxTries, attempt, delay, RetryLoop(tries, maxTries, attempt, delay))
    decreases maxTries - attempt
  {
    var a := tries[attempt - 1];
    if a.result.Failure? && attempt < maxTries && SleepAccepted(delay) {
      RetryLoopSpec(tries, maxTries, attempt + 1, delay * 2);
      LoopSpecAfterSleep(tries, maxTries, attempt, delay);
    }
  }

  /** A failed attempt followed by an accepted sleep extends the rest of
      the loop, which starts at the doubled delay, by one attempt and one
      sleep. */
  lemma LoopSpecAfterSleep(tries: seq<AttemptResult>, maxTries: nat, attempt: nat, delay: int)
    requires 1 <= attempt < maxTries <= |tries|
    requires tries[attempt - 1].result.Failure? && SleepAccepted(delay)
    requires LoopSpec(tries, maxTries, attempt + 1, delay * 2, RetryLoop(tries, maxTries, attempt + 1, delay * 2))
    ensures LoopSpec(tries, maxTries, attempt, delay, RetryLoop(tries, maxTries, attempt, delay))
  {
    var rest := RetryLoop(tries, maxTries, attempt + 1, delay * 2);
    var called := if tries[attempt - 1].called then 1 else 0;
    assert RetryLoop(tries, maxTries, attempt, delay)
           == Run(rest.status, rest.attempts + 1, rest.calls + called, [delay] + rest.sleeps);
    assert ([delay] + rest.sleeps)[1..] == rest.sleeps;
    assert delay * 2 * Pow2(rest.attempts - 1) == delay * Pow2(rest.attempts);
  }

  /** `extract_from_image(base64_image, max_tries, retry_delay)`. The image
      is only forwarded to the provider and so does not appear. With
      `max_tries < 1` the loop body never runs and the function falls off
      its end, returning `None`. */
  function ExtractFromImage(src: PromptSource, parse: string -> Option<Json>, script: seq<Outcome>,
                            maxTries: int, retryDelay: int): (run: Run)
    requires maxTries <= |script|
    ensures maxTries < 1 <==> run.status.ReturnedNone?
    ensures maxTries < 1 ==> run.attempts == 0 && run.calls == 0 && run.sleeps == []
    ensures maxTries >= 1 ==> 1 <= run.attempts <= maxTries
  {
    if maxTries < 1 then Run(ReturnedNone, 0, 0, [])
    else
      var run := RetryLoop(Attempts(src, parse, script), maxTries, 1, retryDelay);
      RetryLoopSpec(Attempts(src, parse, script), maxTries, 1, retryDelay);
      run
  }

  /** What `extract_from_image` does, in terms of the attempts. */
  predicate ExtractSpec(src: PromptSource, parse: string -> Option<Json>, script: seq<Outcome>,
                        maxTries: int, retryDelay: int, run: Run)
    requires 1 <= maxTries <= |script|
  {
    && 1 <= run.attempts <= maxTries
    && run.calls == (if SystemPrompt(src).Success? then run.attempts else 0)
    && AllFail(Attempts(src, parse, script), 0, run.attempts - 1)
    && (run.status.Returned? ==>
          Attempt(src, parse, script[run.attempts - 1]).result == Success(run.status.highlights))
    && |run.sleeps| == run.attempts - 1 && IsBackoff(run.sleeps, retryDelay)
    && SleepsAccepted(retryDelay, run.attempts - 1)
    && (run.status.Raised? && run.attempts == maxTries ==>
          Attempt(src, parse, script[maxTries - 1]).result == Failure(run.status.error))
    && (run.status.Raised? && run.attempts < maxTries ==>
          && Attempt(src, parse, script[run.attempts - 1]).result.Failure?
          && !SleepAccepted(retryDelay * Pow2(run.attempts - 1))
          && run.status.error == SleepError(retryDelay * Pow2(run.attempts - 1)))
  }

  /** With at least one try, `extract_from_image` makes attempts until one
      succeeds or `max_tries` are used, returns the record of the successful
      attempt or raises the error of the last one, calls the provider on
      every attempt when the prompt loads and on none otherwise, and sleeps
      with a doubling delay between attempts. A delay `time.sleep` rejects
      ends the call at that failure, with the sleep's own error. */
  lemma ExtractFromImageSpec(src: PromptSource, parse: string -> Option<Json>, script: seq<Outcome>,
                             maxTries: int, retryDelay: int)
    requires 1 <= maxTries <= |script|
    ensures !ExtractFromImage(src, parse, script, maxTries, retryDelay).status.ReturnedNone?
    ensures ExtractSpec(src, parse, script, maxTries, retryDelay, ExtractFromImage(src, parse, script, maxTries, retryDelay))
  {
    var tries := Attempts(src, parse, script);
    var run := RetryLoop(tries, maxTries, 1, retryDelay);
    assert ExtractFromImage(src, parse, script, maxTries, retryDelay) == run;
    RetryLoopSpec(tries, maxTries, 1, retryDelay);
    assert AllCalled(tries, 0, maxTries, SystemPrompt(src).Success?);
    assert tries[run.attempts - 1] == Attempt(src, parse, script[run.attempts - 1]);
    assert tries[maxTries - 1] == Attempt(src, parse, script[maxTries - 1]);
  }

  /* ---------------------------------------------------------------------
     Properties of the retry loop.
     --------------------------------------------------------------------- */

  /** The loop from attempt `attempt` on, when attempt `k + 1` is the first
      to succeed from there. */
  lemma {:induction false} RetryLoopFirstSuccess(tries: seq<AttemptResult>, maxTries: nat, attempt: nat,
                                                 delay: int, k: nat)
    requires 1 <= attempt <= maxTries <= |tries|
    requires attempt - 1 <= k < maxTries
    requires tries[k].result.Success?
    requires AllFail(tries, attempt - 1, k)
    requires SleepsAccepted(delay, k - attempt + 1)
    ensures RetryLoop(tries, maxTries, attempt, delay).status == Returned(tries[k].result.value)
    ensures RetryLoop(tries, maxTries, attempt, delay).attempts == k - attempt + 2
    ensures |RetryLoop(tries, maxTries, attempt, delay).sleeps| == k - attempt + 1
    decreases maxTries - attempt
  {
    if k > attempt - 1 {
      RetryLoopFirstSuccess(tries, maxTries, attempt + 1, delay * 2, k);
    }
  }

  /** The first attempt that succeeds decides the call: its record is
      returned after exactly that many attempts and one sleep per earlier
      failure, provided `time.sleep` accepts each of those sleeps. */
  lemma FirstSuccessIsReturned(src: PromptSource, parse: string -> Option<Json>, script: seq<Outcome>,
                               maxTries: int, retryDelay: int, k: nat)
    requires maxTries <= |script|
    requires k < maxTries
    requires Attempt(src, parse, script[k]).result.Success?
    requires forall j :: 0 <= j < k ==> Attempt(src, parse, script[j]).result.Failure?
    requires SleepsAccepted(retryDelay, k)
    ensures ExtractFromImage(src, parse, script, maxTries, retryDelay).status
              == Returned(Attempt(src, parse, script[k]).result.value)
    ensures ExtractFromImage(src, parse, script, maxTries, retryDelay).attempts == k + 1
    ensures |ExtractFromImage(src, parse, script, maxTries, retryDelay).sleeps| == k
  {
    var tries := Attempts(src, parse, script);
    assert ExtractFromImage(src, parse, script, maxTries, retryDelay) == RetryLoop(tries, maxTries, 1, retryDelay);
    assert AllFail(tries, 0, k);
    assert tries[k] == Attempt(src, parse, script[k]);
    RetryLoopFirstSuccess(tries, maxTries, 1, retryDelay, k);
  }

  /** The loop from attempt `attempt` on, when every remaining attempt
      fails. */
  lemma {:induction false} RetryLoopAllFail(tries: seq<AttemptResult>, maxTries: nat, attempt: nat, delay: int)
    requires 1 <= attempt <= maxTries <= |tries|
    requires AllFail(tries, attempt - 1, maxTries)
    requires SleepsAccepted(delay, maxTries - attempt)
    ensures RetryLoop(tries, maxTries, attempt, delay).status == Raised(tries[maxTries - 1].result.error)
    ensures RetryLoop(tries, maxTries, attempt, delay).attempts == maxTries - attempt + 1
    ensures |RetryLoop(tries, maxTries, attempt, delay).sleeps| == maxTries - attempt
    decreases maxTries - attempt
  {
    if attempt < maxTries {
      RetryLoopAllFail(tries, maxTries, attempt + 1, delay * 2);
    }
  }

  /** When every one of `max_tries` attempts fails, the error of the last
      attempt is the one raised, after `max_tries` attempts and
      `max_tries - 1` sleeps, provided `time.sleep` accepts each of them. */
  lemma AllFailedRaisesLast(src: PromptSource, parse: string -> Option<Json>, script: seq<Outcome>,
                            maxTries: int, retryDelay: int)
    requires 1 <= maxTries <= |script|
    requires SleepsAccepted(retryDelay, maxTries - 1)
    requires forall j :: 0 <= j < maxTries ==> Attempt(src, parse, script[j]).result.Failure?
    ensures ExtractFromImage(src, parse, script, maxTries, retryDelay).status
              == Raised(Attempt(src, parse, script[maxTries - 1]).result.error)
    ensures ExtractFromImage(src, parse, script, maxTries, retryDelay).attempts == maxTries
    ensures |ExtractFromImage(src, parse, script, maxTries, retryDelay).sleeps| == maxTries - 1
  {
    var tries := Attempts(src, parse, script);
    assert AllFail(tries, 0, maxTries);
    RetryLoopAllFail(tries, maxTries, 1, retryDelay);
  }

  /** A missing `PROMPT_PATH` is raised inside the `try` and so is retried
      like any other failure: every attempt is made, none reaches the
      provider, and the configuration error is what finally escapes. */
  lemma MissingPromptPathIsRetried(src: PromptSource, parse: string -> Option<Json>, script: seq<Outcome>,
                                   maxTries: int, retryDelay: int)
    requires src.PathUnset? || src.path == ""
    requires 1 <= maxTries <= |script|
    requires SleepsAccepted(retryDelay, maxTries - 1)
    ensures ExtractFromImage(src, parse, script, maxTries, retryDelay)
              == Run(Raised(MissingPromptPath), maxTries, 0,
                     ExtractFromImage(src, parse, script, maxTries, retryDelay).sleeps)
    ensures |ExtractFromImage(src, parse, script, maxTries, retryDelay).sleeps| == maxTries - 1
  {
    AllFailedRaisesLast(src, parse, script, maxTries, retryDelay);
    ExtractFromImageSpec(src, parse, script, maxTries, retryDelay);
  }

  /** The attempts at indices `lo` up to (excluding) `hi` are the same in
      both sequences. */
  predicate AgreeOn(tries: seq<AttemptResult>, tries': seq<AttemptResult>, lo: nat, hi: nat)
    requires hi <= |tries| && hi <= |tries'|
  {
    forall i :: lo <= i < hi ==> tries[i] == tries'[i]
  }

  /** Only the outcomes of the attempts actually made are consulted. */
  lemma {:induction false} RetryLoopReadsOnlyItsAttempts(tries: seq<AttemptResult>, tries': seq<AttemptResult>,
                                                         maxTries: nat, attempt: nat, delay: int)
    requires 1 <= attempt <= maxTries <= |tries| && maxTries <= |tries'|
    requires AgreeOn(tries, tries', attempt - 1, attempt - 1 + RetryLoop(tries, maxTries, attempt, delay).attempts)
    ensures RetryLoop(tries', maxTries, attempt, delay) == RetryLoop(tries, maxTries, attempt, delay)
    decreases maxTries - attempt
  {
    assert tries[attempt - 1] == tries'[attempt - 1];
    if tries[attempt - 1].result.Failure? && attempt < maxTries && SleepAccepted(delay) {
      RetryLoopReadsOnlyItsAttempts(tries, tries', maxTries, attempt + 1, delay * 2);
    }
  }

  /** Later scripted outcomes are never consulted: two scripts that agree on
      the attempts a run made give the same run. */
  lemma LaterOutcomesIgnored(src: PromptSource, parse: string -> Option<Json>, script: seq<Outcome>,
                             script': seq<Outcome>, maxTries: int, retryDelay: int)
    requires maxTries <= |script| && maxTries <= |script'|
    requires var n := ExtractFromImage(src, parse, script, maxTries, retryDelay).attempts;
             script[..n] == script'[..n]
    ensures ExtractFromImage(src, parse, script', maxTries, retryDelay)
              == ExtractFromImage(src, parse, script, maxTries, retryDelay)
  {
    if maxTries >= 1 {
      var n := ExtractFromImage(src, parse, script, maxTries, retryDelay).attempts;
      var tries, tries' := Attempts(src, parse, script), Attempts(src, parse, script');
      assert AgreeOn(tries, tries', 0, n) by {
        forall i | 0 <= i < n ensures tries[i] == tries'[i] {
          assert script[i] == script[..n][i] == script'[..n][i] == script'[i];
        }
      }
      RetryLoopReadsOnlyItsAttempts(tries, tries', maxTries, 1, retryDelay);
    }
  }

  /** Two attempt sequences that succeed at the same attempts, with the same
      records, and call the provider at the same attempts. */
  predicate SameSuccessPattern(tries: seq<AttemptResult>, tries': seq<AttemptResult>, n: nat)
    requires n <= |tries| && n <= |tries'|
  {
    forall i :: 0 <= i < n ==>
      && tries[i].called == tries'[i].called
      && tries[i].result.Success? == tries'[i].result.Success?
      && (tries[i].result.Success? ==> tries[i].result.value == tries'[i].result.value)
  }

  /** A run as seen from outside, apart from which error it raises: the
      attempts, provider calls and sleeps, and the record returned, if any. */
  function Observable(run: Run): (nat, nat, seq<int>, Option<Highlights>) {
    (run.attempts, run.calls, run.sleeps,
     if run.status.Returned? then Some(run.status.highlights) else None)
  }

  /** Which kind of failure an attempt has makes no difference to the loop:
      the same attempts, calls and sleeps happen, and the run ends the same
      way; only the identity of a raised error can differ. */
  lemma {:induction false} FailureKindsInterchangeable(tries: seq<AttemptResult>, tries': seq<AttemptResult>,
                                                       maxTries: nat, attempt: nat, delay: int)
    requires 1 <= attempt <= maxTries <= |tries| && maxTries <= |tries'|
    requires SameSuccessPattern(tries, tries', maxTries)
    ensures Observable(RetryLoop(tries, maxTries, attempt, delay)) == Observable(RetryLoop(tries', maxTries, attempt, delay))
    decreases maxTries - attempt
  {
    var a, a' := tries[attempt - 1], tries'[attempt - 1];
    assert a.called == a'.called;
    assert a.result.Success? == a'.result.Success?;
    if a.result.Failure? && attempt < maxTries && SleepAccepted(delay) {
      FailureKindsInterchangeable(tries, tries', maxTries, attempt + 1, delay * 2);
      ObservableAfterFailure(tries, maxTries, attempt, delay);
      ObservableAfterFailure(tries', maxTries, attempt, delay);
    }
  }

  /** A failed attempt that is not the last adds one attempt, its call and
      one sleep of the current delay to what the rest of the loop does. */
  lemma ObservableAfterFailure(tries: seq<AttemptResult>, maxTries: nat, attempt: nat, delay: int)
    requires 1 <= attempt < maxTries <= |tries|
    requires tries[attempt - 1].result.Failure? && SleepAccepted(delay)
    ensures var rest := Observable(RetryLoop(tries, maxTries, attempt + 1, delay * 2));
            Observable(RetryLoop(tries, maxTries, attempt, delay))
            == (rest.0 + 1, rest.1 + (if tries[attempt - 1].called then 1 else 0), [delay] + rest.2, rest.3)
  {
  }

  function Sum(xs: seq<int>): int
    decreases |xs|
  {
    if |xs| == 0 then 0 else xs[0] + Sum(xs[1..])
  }

  /** The total time slept over a backoff of `n` sleeps is
      `delay * (2^n - 1)`. */
  lemma {:induction false} BackoffTotal(sleeps: seq<int>, delay: int)
    requires IsBackoff(sleeps, delay)
    ensures Sum(sleeps) == delay * (Pow2(|sleeps|) - 1)
    decreases |sleeps|
  {
    if |sleeps| > 0 {
      var n := |sleeps| - 1;
      BackoffTotal(sleeps[1..], delay * 2);
      calc {
        Sum(sleeps);
        delay + (delay * 2) * (Pow2(n) - 1);
        delay * (2 * Pow2(n) - 1);
      }
    }
  }

  /** A reply that cannot be repaired, followed by a valid one: the record of
      the second attempt comes back after exactly one sleep of
      `retry_delay`, and the third scripted outcome is never used. */
  lemma GarbageThenValidReply(prompt: string, parse: string -> Option<Json>, garbage: string,
                              valid: string, usage: Option<UsageMeta>, third: Outcome, d: int)
    requires parse(garbage).None?
    requires parse(valid).Some? && WellFormedHighlights(parse(valid).value)
    requires SleepAccepted(d)
    ensures var run := ExtractFromImage(PathSet("prompt.txt", Some(prompt)), parse,
                                        [Replied(garbage, None), Replied(valid, usage), third], DefaultMaxTries, d);
            && run.status == Returned(StampTokenUsage(ValidateHighlights(parse(valid).value).value, usage))
            && run.attempts == 2 && run.calls == 2 && run.sleeps == [d]
  {
    var src := PathSet("prompt.txt", Some(prompt));
    var script := [Replied(garbage, None), Replied(valid, usage), third];
    FirstSuccessIsReturned(src, parse, script, DefaultMaxTries, d, 1);
    ExtractFromImageSpec(src, parse, script, DefaultMaxTries, d);
  }

  /** The completed test-suite reply on the first attempt of a call with the
      default arguments, with the mocked token counts: the record comes back
      at once, with no sleep, and its metadata carries those counts under
      `token_usage` beside the model's own keys. */
  lemma ValidReplyOnFirstAttempt(prompt: string, parse: string -> Option<Json>, text: string, rest: seq<Outcome>)
    requires parse(text) == Some(CompletedTestSuiteReply())
    requires |rest| == DefaultMaxTries - 1
    ensures var usage := UsageMeta(Some(JInt(666)), Some(JInt(2008)), Some(JInt(6078)));
            var run := ExtractFromImage(PathSet("prompt.txt", Some(prompt)), parse,
                                        [Replied(text, Some(usage))] + rest, DefaultMaxTries, DefaultRetryDelay);
            && run.attempts == 1 && run.calls == 1 && run.sleeps == []
            && run.status.Returned?
            && run.status.highlights.reportYear == 2024
            && |run.status.highlights.metrics| == 1
            && run.status.highlights.metrics[0].name == "Revenue"
            && run.status.highlights.metadata[TokenUsageKey]
               == JObj(map[InputTokensKey := JInt(666), OutputTokensKey := JInt(2008), TotalTokensKey := JInt(6078)])
            && run.status.highlights.metadata["currency"] == JStr("Sri Lankan Rupees")
  {
    CompletedTestSuiteReplyAccepted();
    var usage := UsageMeta(Some(JInt(666)), Some(JInt(2008)), Some(JInt(6078)));
    FirstSuccessIsReturned(PathSet("prompt.txt", Some(prompt)), parse, [Replied(text, Some(usage))] + rest,
                           DefaultMaxTries, DefaultRetryDelay, 0);
  }

  /** With `max_tries = 1`, a reply that cannot be repaired is raised at
      once: one attempt, one call, no sleep. */
  lemma SingleMalformedReplyRaises(prompt: string, parse: string -> Option<Json>, text: string,
                                   usage: Option<UsageMeta>, d: int)
    requires parse(text).None?
    ensures ExtractFromImage(PathSet("prompt.txt", Some(prompt)), parse, [Replied(text, usage)], 1, d)
            == Run(Raised(MalformedReply(text)), 1, 1, [])
  {
  }

  /** A `retry_delay` that `time.sleep` rejects: the first failed attempt
      ends the call. With another attempt left, the sleep raises and its
      error escapes; with a single try, the attempt's own error is raised,
      as no sleep is attempted. */
  lemma RejectedDelayStopsAtFirstFailure(src: PromptSource, parse: string -> Option<Json>,
                                         script: seq<Outcome>, maxTries: int, retryDelay: int)
    requires 1 <= maxTries <= |script|
    requires !SleepAccepted(retryDelay)
    requires Attempt(src, parse, script[0]).result.Failure?
    ensures ExtractFromImage(src, parse, script, maxTries, retryDelay).attempts == 1
    ensures ExtractFromImage(src, parse, script, maxTries, retryDelay).sleeps == []
    ensures ExtractFromImage(src, parse, script, maxTries, retryDelay).status
            == Raised(if maxTries > 1 then SleepError(retryDelay) else Attempt(src, parse, script[0]).result.error)
  {
    ExtractFromImageSpec(src, parse, script, maxTries, retryDelay);
  }

  /** Which delays `time.sleep` refuses, and how: `-1` is a negative
      duration, while a delay one second beyond the clock's range in either
      direction overflows before its sign is looked at. The default backoff
      stays far inside the range. */
  lemma SleepBounds()
    ensures SleepAccepted(0) && SleepAccepted(MaxSleepSeconds)
    ensures SleepError(-1) == NegativeSleep(-1)
    ensures SleepError(-MaxSleepSeconds) == NegativeSleep(-MaxSleepSeconds)
    ensures SleepError(MaxSleepSeconds + 1) == SleepOverflow(MaxSleepSeconds + 1)
    ensures SleepError(-MaxSleepSeconds - 1) == SleepOverflow(-MaxSleepSeconds - 1)
    ensures SleepsAccepted(DefaultRetryDelay, DefaultMaxTries - 1)
  {
  }
}

=== FILE: file_handler.dfy ===
/** `read_pdf` of scripts/file_handler.py: a guard on the argument, then
    `pdf2image.convert_from_path`, here an opaque converter whose raising
    is a `ConverterRaised` outcome. */
module FileHandler {
  import opened Wrappers
  import opened Text

  /** The Python value passed as `file_path`. Every value that is neither
      `None` nor a `str` is `OtherValue` (its truthiness does not matter:
      both a falsy and a truthy non-string are rejected). */
  datatype PathArg = NoneValue | StrValue(s: string) | OtherValue

  /** What the converter does with a path. */
  datatype Conversion<Page> = Converted(pages: seq<Page>) | ConverterRaised

  /** The result of `read_pdf` and the path the converter was called with,
      if it was called at all. */
  datatype ReadOutcome<Page> = ReadOutcome(pages: Option<seq<Page>>, convertedPath: Option<string>)

  /** The paths handed on to the converter: strings ending in `.pdf`,
      compared case-sensitively. */
  predicate IsAcceptedPath(arg: PathArg) {
    arg.StrValue? && EndsWith(arg.s, ".pdf")
  }

  /** `read_pdf(file_path)`: `None` for a falsy, non-string or non-`.pdf`
      argument without calling the converter; otherwise the converter's
      pages, or `None` when it raises. */
  function ReadPdf<Page>(arg: PathArg, convert: string -> Conversion<Page>): (r: ReadOutcome<Page>)
    ensures r.convertedPath.Some? <==> IsAcceptedPath(arg)
    ensures r.convertedPath.Some? ==> r.convertedPath.value == arg.s
    ensures r.pages.Some? <==> IsAcceptedPath(arg) && convert(arg.s).Converted?
    ensures r.pages.Some? ==> r.pages.value == convert(arg.s).pages
  {
    var falsy := match arg
      case NoneValue => true
      case StrValue(s) => s == ""
      case OtherValue => false;
    if falsy || !arg.StrValue? || !EndsWith(arg.s, ".pdf") then
      ReadOutcome(None, None)
    else
      match convert(arg.s)
      case Converted(pages) => ReadOutcome(Some(pages), Some(arg.s))
      case ConverterRaised => ReadOutcome(None, Some(arg.s))
  }

  /** The cases of the test suite, and `.PDF`: none of them reaches the
      converter. */
  lemma RejectedPaths<Page>(convert: string -> Conversion<Page>)
    ensures ReadPdf(NoneValue, convert) == ReadOutcome(None, None)
    ensures ReadPdf(StrValue(""), convert) == ReadOutcome(None, None)
    ensures ReadPdf(StrValue("not_a_pdf.txt"), convert) == ReadOutcome(None, None)
    ensures ReadPdf(OtherValue, convert) == ReadOutcome(None, None)
    ensures ReadPdf(StrValue("report.PDF"), convert) == ReadOutcome(None, None)
  {
    assert "not_a_pdf.txt"[9..] != ".pdf";
    assert "report.PDF"[6..] != ".pdf";
  }
}

=== FILE: json.dfy ===
/** The JSON-like values that `json.loads` produces and `model_dump`
    consumes. Objects are maps, so key order and duplicate keys are not
    represented; Python floats are modelled as exact reals. */
module JsonModel {

  datatype Json =
    | JNull
    | JBool(b: bool)
    | JInt(i: int)
    | JFloat(f: real)
    | JStr(s: string)
    | JArr(items: seq<Json>)
    | JObj(fields: map<string, Json>)
}

=== FILE: schema.dfy ===
/** The `FinancialMetric` / `FinancialHighlights` Pydantic models of
    scripts/extract.py as a validator over parsed JSON, together with
    `model_dump`, the serialisation the output writer applies.

    Pydantic v2 semantics as used there: every field without a default is
    required (an `Optional[float]` field must be present but may be null),
    unknown keys are ignored at every level, and `metadata` defaults to `{}`.
    No lax coercion (numeric strings, booleans) is modelled; an integer given
    for a float field is widened to the same number. */
module Schema {
  import opened Wrappers
  import opened JsonModel

  /** One validated line item (`FinancialMetric`). */
  datatype Metric = Metric(
    name: string,
    value2025: Option<real>,
    value2024: Option<real>,
    changePercent: Option<real>)

  /** The validated extraction result (`FinancialHighlights`). */
  datatype Highlights = Highlights(
    reportYear: int,
    metrics: seq<Metric>,
    metadata: map<string, Json>)

  /** Where in the document validation failed, as Pydantic's `loc`. */
  datatype Loc = Key(key: string) | Index(index: nat)

  datatype Problem =
    | NotAnObject
    | Missing
    | NotAnInteger
    | NotAList
    | NotAString
    | NotANumber

  /** The first error Pydantic would list for the document. */
  datatype SchemaError = SchemaError(loc: seq<Loc>, problem: Problem)

  const MetricKey := "metric"
  const Value2025Key := "value_2025"
  const Value2024Key := "value_2024"
  const ChangePercentKey := "change_percent"
  const ReportYearKey := "report_year"
  const MetricsKey := "metrics"
  const MetadataKey := "metadata"

  /* ---------------------------------------------------------------------
     Declarative description of the documents the models accept.
     --------------------------------------------------------------------- */

  /** A value an `Optional[float]` field accepts. */
  predicate IsNumberOrNull(j: Json) {
    j.JNull? || j.JInt? || j.JFloat?
  }

  /** `j` is the number `v` denotes (null for `None`). */
  predicate Denotes(j: Json, v: Option<real>) {
    || (j.JNull? && v == None)
    || (j.JInt? && v == Some(j.i as real))
    || (j.JFloat? && v == Some(j.f))
  }

  predicate HasNumberOrNull(fields: map<string, Json>, key: string) {
    key in fields && IsNumberOrNull(fields[key])
  }

  /** A document `FinancialMetric.model_validate` accepts. */
  predicate WellFormedMetric(j: Json) {
    && j.JObj?
    && MetricKey in j.fields && j.fields[MetricKey].JStr?
    && HasNumberOrNull(j.fields, Value2025Key)
    && HasNumberOrNull(j.fields, Value2024Key)
    && HasNumberOrNull(j.fields, ChangePercentKey)
  }

  /** A document `FinancialHighlights.model_validate` accepts. */
  predicate WellFormedHighlights(j: Json) {
    && j.JObj?
    && ReportYearKey in j.fields && j.fields[ReportYearKey].JInt?
    && MetricsKey in j.fields && j.fields[MetricsKey].JArr?
    && (forall i :: 0 <= i < |j.fields[MetricsKey].items| ==>
          WellFormedMetric(j.fields[MetricsKey].items[i]))
    && (MetadataKey in j.fields ==> j.fields[MetadataKey].JObj?)
  }

  /* ---------------------------------------------------------------------
     The validator.
     --------------------------------------------------------------------- */

  /** Validates one `Optional[float]` field that has no default. */
  function RequiredNumber(fields: map<string, Json>, key: string, at: seq<Loc>): (r: Result<Option<real>, SchemaError>)
    ensures r.Success? <==> HasNumberOrNull(fields, key)
    ensures r.Success? ==> Denotes(fields[key], r.value)
  {
    if key !in fields then Failure(SchemaError(at + [Key(key)], Missing))
    else match fields[key]
      case JNull => Success(None)
      case JInt(i) => Success(Some(i as real))
      case JFloat(f) => Success(Some(f))
      case _ => Failure(SchemaError(at + [Key(key)], NotANumber))
  }

  /** `FinancialMetric.model_validate` on the item at `metrics[index]`. */
  function ValidateMetric(j: Json, index: nat): (r: Result<Metric, SchemaError>)
    ensures r.Success? <==> WellFormedMetric(j)
    ensures r.Success? ==> r.value.name == j.fields[MetricKey].s
    ensures r.Success? ==> Denotes(j.fields[Value2025Key], r.value.value2025)
    ensures r.Success? ==> Denotes(j.fields[Value2024Key], r.value.value2024)
    ensures r.Success? ==> Denotes(j.fields[ChangePercentKey], r.value.changePercent)
    ensures r.Failure? ==> |r.error.loc| >= 2 && r.error.loc[..2] == [Key(MetricsKey), Index(index)]
  {
    var at := [Key(MetricsKey), Index(index)];
    if !j.JObj? then Failure(SchemaError(at, NotAnObject))
    else
      var f := j.fields;
      if MetricKey !in f then Failure(SchemaError(at + [Key(MetricKey)], Missing))
      else if !f[MetricKey].JStr? then Failure(SchemaError(at + [Key(MetricKey)], NotAString))
      else match RequiredNumber(f, Value2025Key, at)
        case Failure(e) => Failure(e)
        case Success(v2025) =>
          match RequiredNumber(f, Value2024Key, at)
          case Failure(e) => Failure(e)
          case Success(v2024) =>
            match RequiredNumber(f, ChangePercentKey, at)
            case Failure(e) => Failure(e)
            case Success(change) => Success(Metric(f[MetricKey].s, v2025, v2024, change))
  }

  /** Item `i` is the first one that is not a well-formed metric. */
  predicate FirstBadItem(items: seq<Json>, i: int) {
    && 0 <= i < |items|
    && !WellFormedMetric(items[i])
    && forall j :: 0 <= j < i ==> WellFormedMetric(items[j])
  }

  /** The index of the first item that is not a well-formed metric, or
      `|items|` when there is none. */
  function FirstBad(items: seq<Json>): (k: nat)
    ensures k <= |items|
    ensures forall j :: 0 <= j < k ==> WellFormedMetric(items[j])
    ensures k < |items| ==> !WellFormedMetric(items[k])
    decreases |items|
  {
    if |items| == 0 || !WellFormedMetric(items[0]) then 0
    else 1 + FirstBad(items[1..])
  }

  /** Validates `items` as the list `metrics`, the first item sitting at
      index `offset`; the first failing item decides the error. */
  function ValidateMetrics(items: seq<Json>, offset: nat): (r: Result<seq<Metric>, SchemaError>)
    ensures r.Success? <==> forall i :: 0 <= i < |items| ==> WellFormedMetric(items[i])
    ensures r.Success? ==> |r.value| == |items|
    ensures r.Success? ==> forall i :: 0 <= i < |items| ==>
              ValidateMetric(items[i], offset + i) == Success(r.value[i])
    decreases |items|
  {
    if |items| == 0 then Success([])
    else
      match ValidateMetric(items[0], offset)
      case Failure(e) => Failure(e)
      case Success(m) =>
        match ValidateMetrics(items[1..], offset + 1)
        case Failure(e) => Failure(e)
        case Success(ms) => Success([m] + ms)
  }

  /** A rejected list reports the error of its first item that is not a
      well-formed metric, at that item's index. */
  lemma {:induction false} ValidateMetricsFirstError(items: seq<Json>, offset: nat)
    ensures ValidateMetrics(items, offset).Failure? ==> FirstBadItem(items, FirstBad(items))
    ensures ValidateMetrics(items, offset).Failure? ==>
              ValidateMetrics(items, offset) == Failure(ValidateMetric(items[FirstBad(items)], offset + FirstBad(items)).error)
    decreases |items|
  {
    if |items| > 0 && WellFormedMetric(items[0]) {
      ValidateMetricsFirstError(items[1..], offset + 1);
      assert forall j :: 0 <= j < |items| - 1 ==> items[1..][j] == items[j + 1];
    }
  }

  /** `FinancialHighlights.model_validate(j)`. */
  function ValidateHighlights(j: Json): (r: Result<Highlights, SchemaError>)
    ensures r.Success? <==> WellFormedHighlights(j)
    ensures r.Success? ==> r.value.reportYear == j.fields[ReportYearKey].i
    ensures r.Success? ==> |r.value.metrics| == |j.fields[MetricsKey].items|
    ensures r.Success? ==> forall i :: 0 <= i < |r.value.metrics| ==>
              ValidateMetric(j.fields[MetricsKey].items[i], i) == Success(r.value.metrics[i])
    ensures r.Success? && MetadataKey !in j.fields ==> r.value.metadata == map[]
    ensures r.Success? && MetadataKey in j.fields ==> r.value.metadata == j.fields[MetadataKey].fields
  {
    if !j.JObj? then Failure(SchemaError([], NotAnObject))
    else
      var f := j.fields;
      if ReportYearKey !in f then Failure(SchemaError([Key(ReportYearKey)], Missing))
      else if !f[ReportYearKey].JInt? then Failure(SchemaError([Key(ReportYearKey)], NotAnInteger))
      else if MetricsKey !in f then Failure(SchemaError([Key(MetricsKey)], Missing))
      else if !f[MetricsKey].JArr? then Failure(SchemaError([Key(MetricsKey)], NotAList))
      else match ValidateMetrics(f[MetricsKey].items, 0)
        case Failure(e) => Failure(e)
        case Success(ms) =>
          if MetadataKey !in f then Success(Highlights(f[ReportYearKey].i, ms, map[]))
          else if !f[MetadataKey].JObj? then Failure(SchemaError([Key(MetadataKey)], NotAnObject))
          else Success(Highlights(f[ReportYearKey].i, ms, f[MetadataKey].fields))
  }

  /* ---------------------------------------------------------------------
     Serialisation (`model_dump`) and the round trip.
     --------------------------------------------------------------------- */

  function DumpNumber(v: Option<real>): Json {
    match v
    case None => JNull
    case Some(x) => JFloat(x)
  }

  function DumpMetric(m: Metric): Json {
    JObj(map[
      MetricKey := JStr(m.name),
      Value2025Key := DumpNumber(m.value2025),
      Value2024Key := DumpNumber(m.value2024),
      ChangePercentKey := DumpNumber(m.changePercent)])
  }

  function DumpMetrics(ms: seq<Metric>): (r: seq<Json>)
    ensures |r| == |ms|
    ensures forall i :: 0 <= i < |ms| ==> r[i] == DumpMetric(ms[i])
  {
    seq(|ms|, i requires 0 <= i < |ms| => DumpMetric(ms[i]))
  }

  /** Every validated metric is re-accepted unchanged after dumping. */
  lemma MetricRoundTrip(m: Metric, index: nat)
    ensures ValidateMetric(DumpMetric(m), index) == Success(m)
  {
  }

  /** Validating a dumped list of metrics gives the list back. */
  lemma MetricsRoundTrip(ms: seq<Metric>, offset: nat)
    ensures ValidateMetrics(DumpMetrics(ms), offset) == Success(ms)
  {
    var items := DumpMetrics(ms);
    forall i | 0 <= i < |ms|
      ensures WellFormedMetric(items[i]) && ValidateMetric(items[i], offset + i) == Success(ms[i])
    {
      MetricRoundTrip(ms[i], offset + i);
    }
    var r := ValidateMetrics(items, offset);
    assert r.Success?;
    forall i | 0 <= i < |ms|
      ensures r.value[i] == ms[i]
    {
      assert ValidateMetric(items[i], offset + i) == Success(r.value[i]);
    }
    assert r.value == ms;
  }

  /** `FinancialHighlights.model_dump()`: the document holds exactly the
      three declared fields, and serialising a record and validating the
      document again is lossless, record → JSON → record. */
  function DumpHighlights(h: Highlights): (j: Json)
    ensures j.JObj? && j.fields.Keys == {ReportYearKey, MetricsKey, MetadataKey}
    ensures ValidateHighlights(j) == Success(h)
  {
    MetricsRoundTrip(h.metrics, 0);
    JObj(map[
      ReportYearKey := JInt(h.reportYear),
      MetricsKey := JArr(DumpMetrics(h.metrics)),
      MetadataKey := JObj(h.metadata)])
  }

  /** A document lacking `report_year` is rejected, whatever else it holds. */
  lemma MissingReportYearRejected(fields: map<string, Json>)
    requires ReportYearKey !in fields
    ensures ValidateHighlights(JObj(fields)) == Failure(SchemaError([Key(ReportYearKey)], Missing))
  {
  }

  /** Keys the models do not declare play no part in validation of a
      document: adding one to the top-level object changes nothing. */
  lemma UnknownTopLevelKeyIgnored(fields: map<string, Json>, key: string, v: Json)
    requires key != ReportYearKey && key != MetricsKey && key != MetadataKey
    ensures ValidateHighlights(JObj(fields[key := v])) == ValidateHighlights(JObj(fields))
  {
  }

  /** Likewise inside a metric: an undeclared key (such as `value_2023`)
      does not affect whether or how the item validates. */
  lemma UnknownMetricKeyIgnored(fields: map<string, Json>, key: string, v: Json, index: nat)
    requires key != MetricKey && key != Value2025Key && key != Value2024Key && key != ChangePercentKey
    ensures ValidateMetric(JObj(fields[key := v]), index) == ValidateMetric(JObj(fields), index)
  {
  }

  /** The models enforce no length on the metric name and no range on the
      percentage change: an empty name and any change are accepted. */
  lemma EmptyNameAndAnyChangeAccepted(change: real, index: nat)
    ensures ValidateMetric(JObj(map[
              MetricKey := JStr(""),
              Value2025Key := JNull,
              Value2024Key := JNull,
              ChangePercentKey := JFloat(change)]), index)
            == Success(Metric("", None, None, Some(change)))
  {
  }

  /** The reply the test suite feeds to the extractor: a `Revenue` metric
      with `value_2024`, `value_2023` and `change_percent` but no
      `value_2025`. */
  function TestSuiteReply(): Json {
    JObj(map[
      ReportYearKey := JInt(2024),
      MetricsKey := JArr([JObj(map[
        MetricKey := JStr("Revenue"),
        Value2024Key := JInt(171170),
        "value_2023" := JInt(181722),
        ChangePercentKey := JFloat(-5.8)])]),
      MetadataKey := JObj(map[
        "currency" := JStr("Sri Lankan Rupees"),
        "year_end_date" := JStr("December 31, 2024")])])
  }

  /** Because `value_2025` has no default, that reply is rejected, at
      `metrics.0.value_2025`. */
  lemma TestSuiteReplyRejected()
    ensures ValidateHighlights(TestSuiteReply())
            == Failure(SchemaError([Key(MetricsKey), Index(0), Key(Value2025Key)], Missing))
  {
    var doc := TestSuiteReply();
    var items := doc.fields[MetricsKey].items;
    var item := items[0];
    var err := SchemaError([Key(MetricsKey), Index(0), Key(Value2025Key)], Missing);
    assert item.fields[MetricKey] == JStr("Revenue");
    assert Value2025Key !in item.fields;
    assert [Key(MetricsKey), Index(0)] + [Key(Value2025Key)] == err.loc;
    assert ValidateMetric(item, 0) == Failure(err);
    assert ValidateMetrics(items, 0) == Failure(err);
  }

  /** The same reply with `value_2025` supplied as null. */
  function CompletedTestSuiteReply(): Json {
    var doc := TestSuiteReply();
    var item := doc.fields[MetricsKey].items[0];
    JObj(doc.fields[MetricsKey := JArr([JObj(item.fields[Value2025Key := JNull])])])
  }

  /** The completed reply is accepted: report year 2024, one metric named
      `Revenue`, the integer 171170 widened to a float, and the metadata
      kept. */
  lemma CompletedTestSuiteReplyAccepted()
    ensures ValidateHighlights(CompletedTestSuiteReply())
            == Success(Highlights(2024, [Metric("Revenue", None, Some(171170.0), Some(-5.8))],
                                  TestSuiteReply().fields[MetadataKey].fields))
  {
    var doc := TestSuiteReply();
    var item := doc.fields[MetricsKey].items[0];
    var item' := JObj(item.fields[Value2025Key := JNull]);
    assert item'.fields[MetricKey] == JStr("Revenue");
    assert item'.fields[Value2024Key] == JInt(171170);
    assert item'.fields[ChangePercentKey] == JFloat(-5.8);
    var m := Metric("Revenue", None, Some(171170.0), Some(-5.8));
    assert ValidateMetric(item', 0) == Success(m);
    assert ValidateMetrics([item'], 0) == Success([m]) by {
      assert [item'][1..] == [];
      assert ValidateMetrics([], 1) == Success([]);
      assert [m] + [] == [m];
    }
  }
}

=== FILE: text.dfy ===
/** String helpers shared by the path-handling modules; each one mirrors a
    Python `str` method. */
module Text {

  /** Python's `s.endswith(suffix)`. */
  predicate EndsWith(s: string, suffix: string) {
    |suffix| <= |s| && s[|s| - |suffix|..] == suffix
  }

  /** Appending `suffix` to any string gives one that ends with it. */
  lemma AppendEndsWith(s: string, suffix: string)
    ensures EndsWith(s + suffix, suffix)
  {
    assert (s + suffix)[|s|..] == suffix;
  }

  /** Python's `s.rfind(c)` for a single character: the last index holding
      `c`, or -1 when there is none. */
  function LastIndexOf(s: string, c: char): (k: int)
    ensures -1 <= k < |s|
    ensures k >= 0 ==> s[k] == c
    ensures forall i :: k < i < |s| ==> s[i] != c
  {
    if |s| == 0 then -1
    else if s[|s| - 1] == c then |s| - 1
    else LastIndexOf(s[..|s| - 1], c)
  }
}

=== FILE: utils.dfy ===
/** The file-naming helpers of scripts/utils.py and main.py:
    `get_file_path_to_save`, the `.json` guard and target path of
    `write_output_json`, and the output-name rule of `main`.

    Paths are POSIX paths (`/` separator, no alternative separator), as
    `os.path` treats them on the platforms the code targets. */
module Utils {
  import opened Wrappers
  import opened JsonModel
  import opened Text
  import opened Schema

  /* ---------------------------------------------------------------------
     os.path
     --------------------------------------------------------------------- */

  /** `os.path.basename(p)`: everything after the last `/`. */
  function Basename(p: string): (r: string)
    ensures '/' !in r
    ensures EndsWith(p, r)
    ensures |r| == |p| || p[|p| - |r| - 1] == '/'
  {
    p[LastIndexOf(p, '/') + 1..]
  }

  /** `os.path.splitext(p)`: the extension starts at the last `.` after the
      last `/`, unless only dots precede that `.` in the final component
      (so `.bashrc` has no extension). */
  function SplitExt(p: string): (r: (string, string))
    ensures r.0 + r.1 == p
    ensures r.1 == [] || IsExtension(r.1)
    ensures r.1 != [] ==> HasNonDotName(r.0)
  {
    var sepIndex := LastIndexOf(p, '/');
    var dotIndex := LastIndexOf(p, '.');
    if dotIndex > sepIndex && exists i :: sepIndex < i < dotIndex && p[i] != '.' then
      assert p[..dotIndex] + p[dotIndex..] == p;
      assert HasNonDotName(p[..dotIndex]) by {
        var i :| sepIndex < i < dotIndex && p[i] != '.';
        assert LastIndexOf(p[..dotIndex], '/') == sepIndex by {
          LastIndexOfPrefix(p, '/', dotIndex);
        }
        assert p[..dotIndex][i] != '.';
      }
      (p[..dotIndex], p[dotIndex..])
    else
      (p, [])
  }

  /** `splitext` finds an extension whenever there is one: an empty
      extension means no index of `p` starts an extension after a name. */
  lemma SplitExtFindsExtension(p: string)
    ensures SplitExt(p).1 == [] ==> forall i :: 0 <= i < |p| ==> !CanSplitAt(p, i)
  {
    if SplitExt(p).1 == [] {
      forall i | 0 <= i < |p| ensures !CanSplitAt(p, i) {
        if LastIndexOf(p, '/') < i {
          LastIndexOfPrefix(p, '/', i);
        }
      }
    }
  }

  /** A non-empty extension: a dot and then neither a dot nor a slash. */
  predicate IsExtension(e: string) {
    |e| > 0 && e[0] == '.' && forall i :: 0 < i < |e| ==> e[i] != '.' && e[i] != '/'
  }

  /** The last component of `p` holds a character other than `.`. */
  predicate HasNonDotName(p: string) {
    exists i :: LastIndexOf(p, '/') < i < |p| && p[i] != '.'
  }

  /** `p` could be split into a name and an extension at index `i`. */
  predicate CanSplitAt(p: string, i: int)
    requires 0 <= i < |p|
  {
    IsExtension(p[i..]) && HasNonDotName(p[..i])
  }

  /** The last `/` of a prefix that reaches past the last `/` of `p` is that
      same `/`. */
  lemma LastIndexOfPrefix(p: string, c: char, n: nat)
    requires LastIndexOf(p, c) < n <= |p|
    ensures LastIndexOf(p[..n], c) == LastIndexOf(p, c)
  {
    var k := LastIndexOf(p, c);
    if k >= 0 {
      assert p[..n][k] == c;
    }
  }

  /** `os.path.join(directory, name)` for two components: an absolute
      `name` replaces the directory, otherwise a `/` is inserted unless the
      directory is empty or already ends in one. */
  function Join(directory: string, name: string): (r: string)
    ensures EndsWith(r, name)
    ensures '/' !in name ==> Basename(r) == name
    ensures |name| > 0 && name[0] == '/' ==> r == name
    // a relative name is placed under the directory, with at most one `/` added
    ensures !(|name| > 0 && name[0] == '/') ==>
              |directory| <= |r| <= |directory| + 1 + |name| && r[..|directory|] == directory
    // exactly one `/` is added, and only after a non-empty directory not ending in one
    ensures !(|name| > 0 && name[0] == '/') ==>
              |r| == |directory| + |name| + (if directory == [] || directory[|directory| - 1] == '/' then 0 else 1)
    ensures !(|name| > 0 && name[0] == '/') && |r| > |directory| + |name| ==> r[|directory|] == '/'
  {
    if |name| > 0 && name[0] == '/' then name
    else if directory == [] || directory[|directory| - 1] == '/' then
      JoinedBasename(directory, name);
      directory + name
    else
      JoinedBasename(directory + "/", name);
      assert directory + "/" + name == (directory + "/") + name;
      directory + "/" + name
  }

  /** After a directory prefix, the base name is what follows it. */
  lemma JoinedBasename(prefix: string, name: string)
    requires prefix == [] || prefix[|prefix| - 1] == '/'
    ensures EndsWith(prefix + name, name)
    ensures '/' !in name ==> Basename(prefix + name) == name
  {
    var p := prefix + name;
    assert p[|prefix|..] == name;
    if '/' !in name {
      var k := LastIndexOf(p, '/');
      assert forall i :: |prefix| <= i < |p| ==> p[i] == name[i - |prefix|];
      if prefix != [] {
        assert p[|prefix| - 1] == '/';
      }
      assert k == |prefix| - 1;
    }
  }

  /* ---------------------------------------------------------------------
     Sanitising the stem: `re.sub(r"[^a-zA-Z0-9]+", "_", name).lower()`.
     --------------------------------------------------------------------- */

  /** The character class `[a-zA-Z0-9]` (ASCII only, as the pattern is
      written without flags). */
  predicate IsAsciiAlnum(c: char) {
    ('a' <= c <= 'z') || ('A' <= c <= 'Z') || ('0' <= c <= '9')
  }

  /** The characters a sanitised stem may contain. */
  predicate IsSafeChar(c: char) {
    ('a' <= c <= 'z') || ('0' <= c <= '9') || c == '_'
  }

  /** `str.lower` on the characters that can reach it (ASCII alphanumerics
      and `_`): only `A`-`Z` change. */
  function Lower(c: char): (r: char)
    ensures IsAsciiAlnum(c) ==> IsSafeChar(r) && IsAsciiAlnum(r)
    ensures 'a' <= c <= 'z' || '0' <= c <= '9' || c == '_' ==> r == c
  {
    if 'A' <= c <= 'Z' then (c as int + 32) as char else c
  }

  /** The substitution and lowering, read from the right: an alphanumeric
      is kept (lowered), a non-alphanumeric that ends a run contributes one
      `_`, and the rest of a run contributes nothing. */
  function Sanitize(s: string): (r: string)
    ensures |r| <= |s|
    ensures |r| == 0 <==> |s| == 0
  {
    if |s| == 0 then []
    else
      var init, c := s[..|s| - 1], s[|s| - 1];
      if IsAsciiAlnum(c) then Sanitize(init) + [Lower(c)]
      else if |init| > 0 && !IsAsciiAlnum(init[|init| - 1]) then Sanitize(init)
      else Sanitize(init) + "_"
  }

  /** A sanitised string holds only lower-case ASCII letters, digits and
      `_`; it is no longer than the input, empty only when the input is, and
      ends in `_` exactly when the input ends in a non-alphanumeric. */
  lemma {:induction false} SanitizeShape(s: string)
    ensures forall i :: 0 <= i < |Sanitize(s)| ==> IsSafeChar(Sanitize(s)[i])
    ensures |Sanitize(s)| <= |s|
    ensures |Sanitize(s)| > 0 && Sanitize(s)[|Sanitize(s)| - 1] == '_' <==> |s| > 0 && !IsAsciiAlnum(s[|s| - 1])
    ensures |Sanitize(s)| == 0 <==> |s| == 0
  {
    if |s| > 0 {
      var init := s[..|s| - 1];
      SanitizeShape(init);
    }
  }

  /** The regular-expression substitution as `re.sub` performs it, scanning
      left to right and writing one `_` per maximal run of characters
      outside the class, followed by lowering. */
  method SanitizeStem(name: string) returns (out: string)
    ensures out == Sanitize(name)
  {
    out := [];
    var inRun := false;
    var i := 0;
    while i < |name|
      invariant 0 <= i <= |name|
      invariant out == Sanitize(name[..i])
      invariant inRun <==> i > 0 && !IsAsciiAlnum(name[i - 1])
    {
      var c := name[i];
      assert name[..i + 1][..i] == name[..i];
      if IsAsciiAlnum(c) {
        out := out + [Lower(c)];
        inRun := false;
      } else if !inRun {
        out := out + "_";
        inRun := true;
      }
      i := i + 1;
    }
    assert name[..i] == name;
  }

  predicate NoDoubleUnderscore(s: string) {
    forall i :: 0 <= i < |s| - 1 ==> !(s[i] == '_' && s[i + 1] == '_')
  }

  /** Each run of non-alphanumerics becomes exactly one `_`, so two never
      stand next to each other. */
  lemma {:induction false} SanitizeHasNoDoubleUnderscore(s: string)
    ensures NoDoubleUnderscore(Sanitize(s))
  {
    if |s| > 0 {
      var init := s[..|s| - 1];
      SanitizeHasNoDoubleUnderscore(init);
    }
  }

  /** The ASCII alphanumerics of a string, in order. */
  function Alnums(s: string): string {
    if |s| == 0 then []
    else if IsAsciiAlnum(s[|s| - 1]) then Alnums(s[..|s| - 1]) + [s[|s| - 1]]
    else Alnums(s[..|s| - 1])
  }

  function LowerAll(s: string): (r: string)
    ensures |r| == |s|
    ensures forall i :: 0 <= i < |s| ==> r[i] == Lower(s[i])
  {
    seq(|s|, i requires 0 <= i < |s| => Lower(s[i]))
  }

  /** Sanitising keeps exactly the stem's alphanumerics, lowered and in
      their original order. */
  lemma {:induction false} SanitizeKeepsAlnums(s: string)
    ensures Alnums(Sanitize(s)) == LowerAll(Alnums(s))
  {
    if |s| > 0 {
      var init, c := s[..|s| - 1], s[|s| - 1];
      SanitizeKeepsAlnums(init);
      var r0 := Sanitize(init);
      if IsAsciiAlnum(c) {
        assert (r0 + [Lower(c)])[..|r0|] == r0;
        assert LowerAll(Alnums(init) + [c]) == LowerAll(Alnums(init)) + [Lower(c)];
      } else if !(|init| > 0 && !IsAsciiAlnum(init[|init| - 1])) {
        assert (r0 + "_")[..|r0|] == r0;
      }
    }
  }

  /** The number of maximal runs of non-alphanumerics in `s`. */
  function Runs(s: string): nat {
    if |s| == 0 then 0
    else
      var init, c := s[..|s| - 1], s[|s| - 1];
      if !IsAsciiAlnum(c) && (|init| == 0 || IsAsciiAlnum(init[|init| - 1])) then Runs(init) + 1
      else Runs(init)
  }

  function Underscores(s: string): nat {
    if |s| == 0 then 0
    else Underscores(s[..|s| - 1]) + (if s[|s| - 1] == '_' then 1 else 0)
  }

  /** One `_` per run, and no other. */
  lemma {:induction false} SanitizeUnderscorePerRun(s: string)
    ensures Underscores(Sanitize(s)) == Runs(s)
  {
    if |s| > 0 {
      var init, c := s[..|s| - 1], s[|s| - 1];
      SanitizeUnderscorePerRun(init);
      var r0 := Sanitize(init);
      if IsAsciiAlnum(c) {
        assert Sanitize(s) == r0 + [Lower(c)];
        UnderscoresSnoc(r0, Lower(c));
      } else if |init| > 0 && !IsAsciiAlnum(init[|init| - 1]) {
        assert Sanitize(s) == r0;
      } else {
        assert Sanitize(s) == r0 + ['_'];
        UnderscoresSnoc(r0, '_');
      }
    }
  }

  lemma UnderscoresSnoc(r: string, ch: char)
    ensures Underscores(r + [ch]) == Underscores(r) + (if ch == '_' then 1 else 0)
  {
    assert (r + [ch])[..|r|] == r;
  }

  /** A string already made of safe characters without doubled `_` is left
      as it is. */
  lemma {:induction false} SanitizeFixesSafe(t: string)
    requires forall i :: 0 <= i < |t| ==> IsSafeChar(t[i])
    requires NoDoubleUnderscore(t)
    ensures Sanitize(t) == t
  {
    if |t| > 0 {
      var init, c := t[..|t| - 1], t[|t| - 1];
      assert t == init + [c];
      assert forall i :: 0 <= i < |init| ==> init[i] == t[i];
      SanitizeFixesSafe(init);
      SanitizeSnoc(init, c);
      if c == '_' && |init| > 0 {
        assert init[|init| - 1] != '_';
      }
    }
  }

  /** Sanitising twice is sanitising once. */
  lemma SanitizeIdempotent(s: string)
    ensures Sanitize(Sanitize(s)) == Sanitize(s)
  {
    SanitizeShape(s);
    SanitizeHasNoDoubleUnderscore(s);
    SanitizeFixesSafe(Sanitize(s));
  }

  /* ---------------------------------------------------------------------
     get_file_path_to_save
     --------------------------------------------------------------------- */

  predicate IsLowerHex(c: char) {
    ('0' <= c <= '9') || ('a' <= c <= 'f')
  }

  /** What `str(uuid.uuid4())` begins with: eight lower-case hex digits. */
  predicate IsUuidText(u: string) {
    |u| >= 8 && forall i :: 0 <= i < 8 ==> IsLowerHex(u[i])
  }

  /** `get_file_path_to_save(path)` with `uuid` standing for
      `str(uuid.uuid4())`: the sanitised stem of the base name, `_`, the
      first eight characters of the uuid, and the extension as it was. */
  function FileNameToSave(path: string, uuid: string): (r: string)
    requires IsUuidText(uuid)
    ensures '/' !in r
    ensures EndsWith(r, SplitExt(Basename(path)).1)
    ensures SplitExt(r) == (Sanitize(SplitExt(Basename(path)).0) + "_" + uuid[..8], SplitExt(Basename(path)).1)
  {
    var (stem, ext) := SplitExt(Basename(path));
    var name := Sanitize(stem) + "_" + uuid[..8];
    SavedNameIsPlain(stem, uuid);
    SavedNameSplits(name, ext);
    AppendEndsWith(name, ext);
    name + ext
  }

  /** The sanitised stem, `_` and eight hex digits hold no `.` or `/`. */
  lemma SavedNameIsPlain(stem: string, uuid: string)
    requires IsUuidText(uuid)
    ensures IsPlainName(Sanitize(stem) + "_" + uuid[..8])
  {
    SanitizeShape(stem);
    var safe := Sanitize(stem) + "_";
    var hex := uuid[..8];
    assert IsPlainName(safe) by {
      assert forall i :: 0 <= i < |safe| ==> IsSafeChar(safe[i]);
    }
    assert IsPlainName(hex) by {
      assert forall i :: 0 <= i < 8 ==> IsLowerHex(hex[i]);
    }
    PlainConcat(safe, hex);
  }

  /** A sanitised stem followed by `_` and hex digits splits back into that
      name and the original extension. */
  lemma SavedNameSplits(name: string, ext: string)
    requires |name| > 0
    requires IsPlainName(name)
    requires ext == [] || IsExtension(ext)
    ensures '/' !in name + ext
    ensures SplitExt(name + ext) == (name, ext)
  {
    var p := name + ext;
    assert p[..|name|] == name && p[|name|..] == ext;
    assert forall i :: 0 <= i < |name| ==> p[i] == name[i];
    assert forall i :: |name| <= i < |p| ==> p[i] == ext[i - |name|];
    assert LastIndexOf(p, '/') == -1;
    if ext == [] {
      assert LastIndexOf(p, '.') == -1;
    } else {
      assert p[|name|] == '.';
      assert LastIndexOf(p, '.') == |name|;
      assert p[0] != '.';
    }
  }

  /* ---------------------------------------------------------------------
     main's output name and write_output_json
     --------------------------------------------------------------------- */

  /** `os.path.splitext(os.path.basename(path))[0] + ".json"`, the name
      `main` chooses for the output document. */
  function OutputJsonName(path: string): (r: string)
    ensures '/' !in r
    ensures EndsWith(r, ".json")
    // the name splits back into the input's stem and `.json`
    ensures HasNonDotName(SplitExt(Basename(path)).0) ==> SplitExt(r) == (SplitExt(Basename(path)).0, ".json")
  {
    var b := Basename(path);
    var stem := SplitExt(b).0;
    StemHasNoSlash(b);
    JsonNameOfStem(stem);
    assert HasNonDotName(stem) ==> SplitExt(stem + ".json") == (stem, ".json") by {
      if HasNonDotName(stem) {
        ExtensionSplitsOff(stem, ".json");
      }
    }
    stem + ".json"
  }

  /** A `/`-free name with a character other than `.`, followed by an
      extension, splits back into the two. */
  lemma ExtensionSplitsOff(stem: string, ext: string)
    requires '/' !in stem && HasNonDotName(stem)
    requires IsExtension(ext)
    ensures SplitExt(stem + ext) == (stem, ext)
  {
    var p := stem + ext;
    assert forall i :: 0 <= i < |stem| ==> p[i] == stem[i];
    assert forall i :: |stem| <= i < |p| ==> p[i] == ext[i - |stem|];
    assert LastIndexOf(stem, '/') == -1;
    assert LastIndexOf(p, '/') == -1;
    assert p[|stem|] == '.';
    assert LastIndexOf(p, '.') == |stem|;
    var i :| -1 < i < |stem| && stem[i] != '.';
    assert p[i] != '.';
    assert p[..|stem|] == stem && p[|stem|..] == ext;
  }

  lemma JsonNameOfStem(stem: string)
    requires '/' !in stem
    ensures '/' !in stem + ".json"
    ensures EndsWith(stem + ".json", ".json")
  {
    AppendEndsWith(stem, ".json");
  }

  /** The stem `splitext` gives for a base name is free of `/` as well. */
  lemma StemHasNoSlash(b: string)
    requires '/' !in b
    ensures '/' !in SplitExt(b).0
  {
    var r := SplitExt(b);
    assert r.0 + r.1 == b;
  }

  /** What `write_output_json` hands to `json.dump`: a Pydantic record is
      dumped with `model_dump`, anything else is written as it is. */
  datatype Payload = Record(highlights: Highlights) | Plain(document: Json)

  /** Where the document goes and what it holds. */
  datatype WritePlan = WritePlan(target: string, document: Json)

  datatype WriteError = NotAJsonName(name: string)

  /** `write_output_json(file_path, data)` up to the write itself: a name
      not ending in `.json` raises before anything touches the file
      system; otherwise the target is `os.path.join(OUTPUT_DIR, name)`. */
  function WriteOutputJson(name: string, outputDir: string, data: Payload): (r: Result<WritePlan, WriteError>)
    ensures r.Failure? <==> !EndsWith(name, ".json")
    ensures r.Failure? ==> r.error == NotAJsonName(name)
    ensures r.Success? ==> EndsWith(r.value.target, name)
    ensures r.Success? && '/' !in name ==> Basename(r.value.target) == name
    ensures r.Success? && name[0] != '/' ==>
              |outputDir| <= |r.value.target| <= |outputDir| + 1 + |name|
              && r.value.target[..|outputDir|] == outputDir
    ensures r.Success? && name[0] != '/' ==>
              |r.value.target| == |outputDir| + |name| + (if outputDir == [] || outputDir[|outputDir| - 1] == '/' then 0 else 1)
    ensures r.Success? && name[0] != '/' && |r.value.target| > |outputDir| + |name| ==> r.value.target[|outputDir|] == '/'
    ensures r.Success? && data.Record? ==> ValidateHighlights(r.value.document) == Success(data.highlights)
    ensures r.Success? && data.Plain? ==> r.value.document == data.document
  {
    if !EndsWith(name, ".json") then Failure(NotAJsonName(name))
    else
      match data
      case Record(h) =>
        Success(WritePlan(Join(outputDir, name), DumpHighlights(h)))
      case Plain(j) => Success(WritePlan(Join(outputDir, name), j))
  }

  /** The name `main` derives for the copied input is always accepted by
      the `.json` guard, and it is the sanitised stem and uuid part of the
      copy's name. */
  lemma OutputNameOfCopyAccepted(inputDir: string, path: string, uuid: string, outputDir: string, data: Payload)
    requires IsUuidText(uuid)
    ensures var copy := Join(inputDir, FileNameToSave(path, uuid));
            && OutputJsonName(copy) == Sanitize(SplitExt(Basename(path)).0) + "_" + uuid[..8] + ".json"
            && WriteOutputJson(OutputJsonName(copy), outputDir, data).Success?
  {
  }

  /** One step of `Sanitize`, read off for a string with a last character. */
  lemma SanitizeSnoc(s: string, c: char)
    ensures IsAsciiAlnum(c) ==> Sanitize(s + [c]) == Sanitize(s) + [Lower(c)]
    ensures !IsAsciiAlnum(c) && |s| > 0 && !IsAsciiAlnum(s[|s| - 1]) ==> Sanitize(s + [c]) == Sanitize(s)
    ensures !IsAsciiAlnum(c) && (|s| == 0 || IsAsciiAlnum(s[|s| - 1])) ==> Sanitize(s + [c]) == Sanitize(s) + "_"
  {
    assert (s + [c])[..|s|] == s;
  }

  /** Sanitising distributes over a concatenation that does not split a
      run of non-alphanumerics. */
  lemma {:induction false} SanitizeConcat(a: string, b: string)
    requires a == [] || b == [] || IsAsciiAlnum(a[|a| - 1]) || IsAsciiAlnum(b[0])
    ensures Sanitize(a + b) == Sanitize(a) + Sanitize(b)
    decreases |b|
  {
    if a == [] {
      assert a + b == b;
    } else if b == [] {
      assert a + b == a;
    } else {
      var b', c := b[..|b| - 1], b[|b| - 1];
      assert b == b' + [c];
      assert a + b == (a + b') + [c];
      SanitizeConcat(a, b');
      if IsAsciiAlnum(c) {
        ConcatAlnumStep(a, b', c);
      } else if b' == [] {
        assert b == [c];
        ConcatRunStartStep(a, c);
      } else {
        ConcatRunStep(a, b', c);
      }
    }
  }

  /** The steps of `SanitizeConcat`, one more character on the right: an
      alphanumeric, ... */
  lemma ConcatAlnumStep(a: string, b': string, c: char)
    requires IsAsciiAlnum(c)
    requires Sanitize(a + b') == Sanitize(a) + Sanitize(b')
    ensures Sanitize((a + b') + [c]) == Sanitize(a) + Sanitize(b' + [c])
  {
    SanitizeSnoc(a + b', c);
    SanitizeSnoc(b', c);
    assert (Sanitize(a) + Sanitize(b')) + [Lower(c)] == Sanitize(a) + (Sanitize(b') + [Lower(c)]);
  }

  /** ... a non-alphanumeric right after an alphanumeric end of `a`, ... */
  lemma ConcatRunStartStep(a: string, c: char)
    requires a != [] && IsAsciiAlnum(a[|a| - 1]) && !IsAsciiAlnum(c)
    ensures Sanitize(a + [c]) == Sanitize(a) + Sanitize([c])
  {
    SanitizeSnoc(a, c);
    assert Sanitize([c]) == "_" by {
      SanitizeSnoc([], c);
      assert [] + [c] == [c];
    }
  }

  /** ... or a non-alphanumeric after a non-empty `b'`, whose last
      character decides whether a run continues. */
  lemma ConcatRunStep(a: string, b': string, c: char)
    requires b' != [] && !IsAsciiAlnum(c)
    requires Sanitize(a + b') == Sanitize(a) + Sanitize(b')
    ensures Sanitize((a + b') + [c]) == Sanitize(a) + Sanitize(b' + [c])
  {
    var ab' := a + b';
    assert ab'[|ab'| - 1] == b'[|b'| - 1];
    SanitizeSnoc(ab', c);
    SanitizeSnoc(b', c);
    assert (Sanitize(a) + Sanitize(b')) + "_" == Sanitize(a) + (Sanitize(b') + "_");
  }

  /** A stem of alphanumerics only is just lowered. */
  lemma {:induction false} SanitizeAlnumsOnly(s: string)
    requires forall i :: 0 <= i < |s| ==> IsAsciiAlnum(s[i])
    ensures Sanitize(s) == LowerAll(s)
  {
    if |s| > 0 {
      SanitizeAlnumsOnly(s[..|s| - 1]);
    }
  }

  /** A non-empty run of non-alphanumerics becomes a single `_`. */
  lemma {:induction false} SanitizeRunOnly(s: string)
    requires |s| > 0
    requires forall i :: 0 <= i < |s| ==> !IsAsciiAlnum(s[i])
    ensures Sanitize(s) == "_"
  {
    if |s| > 1 {
      SanitizeRunOnly(s[..|s| - 1]);
    }
  }

  /** Two words of safe characters joined by `_` are left as they are. */
  lemma JoinedWordsUnchanged(a: string, b: string)
    requires |a| > 0
    requires forall i :: 0 <= i < |a| ==> IsSafeChar(a[i]) && a[i] != '_'
    requires forall i :: 0 <= i < |b| ==> IsSafeChar(b[i]) && b[i] != '_'
    ensures Sanitize(a + "_" + b) == a + "_" + b
  {
    var a' := a + "_";
    assert Sanitize(a') == a' by {
      assert IsAsciiAlnum(a[|a| - 1]);
      SanitizeFixesSafe(a);
      SanitizeSnoc(a, '_');
    }
    assert Sanitize(b) == b by {
      SanitizeFixesSafe(b);
    }
    assert a'[|a'| - 1] == '_';
    assert b == [] || IsAsciiAlnum(b[0]);
    SanitizeConcat(a', b);
  }

  /** Two words joined by `_`, then a parenthesised word after a space (the
      shape of a downloaded duplicate such as `report_final (2)`): the
      space and parentheses collapse into single underscores. */
  lemma DuplicateNameShape(a: string, b: string, c: string)
    requires |a| > 0 && |b| > 0 && |c| > 0
    requires forall i :: 0 <= i < |a| ==> IsSafeChar(a[i]) && a[i] != '_'
    requires forall i :: 0 <= i < |b| ==> IsSafeChar(b[i]) && b[i] != '_'
    requires forall i :: 0 <= i < |c| ==> IsSafeChar(c[i]) && c[i] != '_'
    ensures Sanitize(a + "_" + b + " (" + c + ")") == a + "_" + b + "_" + c + "_"
  {
    var s2 := a + "_" + b;
    JoinedWordsUnchanged(a, b);
    assert s2[|s2| - 1] == b[|b| - 1];
    ParenthesisedTail(s2, c);
  }

  /** A word in parentheses after a space, following an alphanumeric: the
      space and `(` become one `_`, the `)` another. */
  lemma ParenthesisedTail(s: string, c: string)
    requires |s| > 0 && IsAsciiAlnum(s[|s| - 1])
    requires |c| > 0
    requires forall i :: 0 <= i < |c| ==> IsSafeChar(c[i]) && c[i] != '_'
    ensures Sanitize(s + " (" + c + ")") == Sanitize(s) + "_" + c + "_"
  {
    var s3 := s + " (";
    var s4 := s3 + c;
    OpenParenStep(s);
    WordStep(s3, c);
    assert s4[|s4| - 1] == c[|c| - 1];
    SanitizeSnoc(s4, ')');
    assert s4 + ")" == s4 + [')'];
  }

  /** After an alphanumeric, ` (` becomes a single `_`. */
  lemma OpenParenStep(s: string)
    requires |s| > 0 && IsAsciiAlnum(s[|s| - 1])
    ensures Sanitize(s + " (") == Sanitize(s) + "_"
  {
    var s1 := s + [' '];
    SanitizeSnoc(s, ' ');
    assert s1[|s1| - 1] == ' ';
    SanitizeSnoc(s1, '(');
    assert s + " (" == s1 + ['('];
  }

  /** A word of safe characters without `_` is appended unchanged. */
  lemma WordStep(s: string, c: string)
    requires |c| > 0
    requires forall i :: 0 <= i < |c| ==> IsSafeChar(c[i]) && c[i] != '_'
    ensures Sanitize(s + c) == Sanitize(s) + c
  {
    assert IsAsciiAlnum(c[0]);
    SanitizeFixesSafe(c);
    SanitizeConcat(s, c);
  }

  /** The saved name of a duplicate download `<dir>/<a>_<b> (<c>).pdf`: the
      directory is dropped, the space and parentheses collapse into single
      underscores, the eight uuid characters form the last `_`-separated
      part, and `.pdf` survives. The `_` left by `)` and the `_` put before
      the uuid stand side by side, so the name holds `__`. The test suite's
      `/path/to/financial_statement (1).pdf` is the instance `a = financial`,
      `b = statement`, `c = 1`. */
  lemma SavedNameOfDuplicate(dir: string, a: string, b: string, c: string, uuid: string)
    requires dir == [] || dir[|dir| - 1] == '/'
    requires |a| > 0 && |b| > 0 && |c| > 0
    requires forall i :: 0 <= i < |a| ==> IsSafeChar(a[i]) && a[i] != '_'
    requires forall i :: 0 <= i < |b| ==> IsSafeChar(b[i]) && b[i] != '_'
    requires forall i :: 0 <= i < |c| ==> IsSafeChar(c[i]) && c[i] != '_'
    requires IsUuidText(uuid)
    ensures FileNameToSave(dir + a + "_" + b + " (" + c + ").pdf", uuid)
            == a + "_" + b + "_" + c + "__" + uuid[..8] + ".pdf"
  {
    var stem := a + "_" + b + " (" + c + ")";
    var path := dir + a + "_" + b + " (" + c + ").pdf";
    DuplicateSplits(dir, a, b, c);
    DuplicateNameShape(a, b, c);
    var words := a + "_" + b + "_" + c;
    assert FileNameToSave(path, uuid) == (words + "_") + "_" + uuid[..8] + ".pdf";
    assert words + "_" + "_" == words + "__";
  }

  /** Neither a `.` nor a `/` occurs in `s`. */
  predicate IsPlainName(s: string) {
    forall i :: 0 <= i < |s| ==> s[i] != '.' && s[i] != '/'
  }

  lemma PlainConcat(x: string, y: string)
    requires IsPlainName(x) && IsPlainName(y)
    ensures IsPlainName(x + y)
  {
    assert forall i :: |x| <= i < |x + y| ==> (x + y)[i] == y[i - |x|];
  }

  /** The base name and extension of `<dir>/<a>_<b> (<c>).pdf`. */
  lemma DuplicateSplits(dir: string, a: string, b: string, c: string)
    requires dir == [] || dir[|dir| - 1] == '/'
    requires forall i :: 0 <= i < |a| ==> IsSafeChar(a[i])
    requires forall i :: 0 <= i < |b| ==> IsSafeChar(b[i])
    requires forall i :: 0 <= i < |c| ==> IsSafeChar(c[i])
    ensures SplitExt(Basename(dir + a + "_" + b + " (" + c + ").pdf")) == (a + "_" + b + " (" + c + ")", ".pdf")
  {
    var stem := a + "_" + b + " (" + c + ")";
    var base := stem + ".pdf";
    assert dir + a + "_" + b + " (" + c + ").pdf" == dir + base;
    DuplicateStemIsPlain(a, b, c);
    SavedNameSplits(stem, ".pdf");
    JoinedBasename(dir, base);
  }

  lemma DuplicateStemIsPlain(a: string, b: string, c: string)
    requires forall i :: 0 <= i < |a| ==> IsSafeChar(a[i])
    requires forall i :: 0 <= i < |b| ==> IsSafeChar(b[i])
    requires forall i :: 0 <= i < |c| ==> IsSafeChar(c[i])
    ensures IsPlainName(a + "_" + b + " (" + c + ")")
  {
    assert IsPlainName("_") && IsPlainName(" (") && IsPlainName(")");
    PlainConcat(a, "_");
    PlainConcat(a + "_", b);
    PlainConcat(a + "_" + b, " (");
    PlainConcat(a + "_" + b + " (", c);
    PlainConcat(a + "_" + b + " (" + c, ")");
  }
}

=== FILE: wrappers.dfy ===
/** Failure-carrying wrappers used throughout the model: Python's `None`-or-value
    and raise-or-return are both expressed with these. */
module Wrappers {

  /** A value that may be absent (Python's `Optional[...]`). */
  datatype Option<+T> = None | Some(value: T) {

    /** The carried value, or `default` when absent. */
    function GetOr(default: T): T {
      match this
      case Some(v) => v
      case None => default
    }
  }

  /** Either a computed value or the error that was raised instead. */
  datatype Result<+R, +E> = Success(value: R) | Failure(error: E)
}
